=== FILE: README.md ===
# Analytics side-service of the payroll system, modelled in Dafny

The repository is a payroll bookkeeping application with a Python analytics
service next to it. This project models the deterministic core of that
analytics service, in three parts:

- **Financial health scorer** (`HealthScorer`, `health_scorer.dfy`). Five
  threshold ladders turn cash coverage, burn ratio, runway, growth and the
  expense ratio into component scores. A fixed-weight average combines them
  with a constant revenue-trend score of 70, and the result is rounded to one
  decimal. The module also models the letter-grade ladder, the insight rules
  and the recommendation rules.
- **Spending-pattern analysis** (`ExpensePatterns`, `expense_patterns.dfy`).
  Expense amounts are grouped by category and by year-month (the generic
  group-by is in `Grouping`, `grouping.dfy`). The five largest categories come
  from a stable descending sort (`StableSort`, `stable_sort.dfy`), and the
  module also computes the mean of the monthly totals.
- **Anomaly post-processing** (`AnomalyDetector`, `anomaly_detector.dfy`). The
  isolation forest's predictions and scores are inputs. The module picks out
  the flagged expenses, rates each one's severity from `|score|`, and gives
  each a reason built from ordered rules with a default fallback. It then
  sorts the flagged expenses by score (stable, descending) and summarises
  them.

The expense record that both the pattern analysis and the detector read is in
`Expenses` (`expenses.dfy`), `Option`/`Result` are in `Wrappers` (`wrappers.dfy`), and integer `Min`/`Max` in `Numbers` (`numbers.dfy`).

Modelling choices:

- Python floats are exact `real`s.
- A metrics key the caller did not send is `None`. Each use then applies the
  default that the scorer passes to `dict.get` at that point. These defaults
  differ between uses: a missing `monthly_revenue` counts as 0 for the burn
  score and as 1 for the expense ratio.
- A division by zero that Python would raise is an explicit `Failure`.
- Messages built with f-strings are tags that carry the figure they report.
- `round(x, 1)` is round-half-to-even on the exact real value.

## Model

| member | source | states |
|---|---|---|
| HealthScorer.ScoreCashReserves | ml-service/models/health_scorer.py:99-115 | 50 when monthly expenses are 0; otherwise one of 20/40/60/80/100, with inclusive lower bounds of 12, 6, 3 and 1 months of coverage for 100, 80, 60 and 40 |
| HealthScorer.ScoreBurnRate | ml-service/models/health_scorer.py:117-133 | with zero revenue, 30 if nothing is burnt and 20 otherwise; otherwise one of 30/50/70/90/100, with inclusive upper bounds 0, 0.2, 0.5 and 1 on burn/revenue |
| HealthScorer.ScoreRunway | ml-service/models/health_scorer.py:135-146 | one of 20/40/60/80/100, with inclusive lower bounds 24, 12, 6 and 3 months |
| HealthScorer.ScoreGrowth | ml-service/models/health_scorer.py:148-161 | one of 20/40/60/75/90/100, with inclusive lower bounds 0.3, 0.2, 0.1, 0 and -0.1; growth 0 scores 60 |
| HealthScorer.ScoreExpenseRatio | ml-service/models/health_scorer.py:163-179 | 30 with zero revenue; otherwise one of 20/40/60/80/100, with inclusive upper bounds 0.5, 0.7, 0.9 and 1 on expenses/revenue |
| HealthScorer.CashScoreMonotone | ml-service/models/health_scorer.py:99-115 | for non-zero expenses the cash score never falls as cash/expenses rises |
| HealthScorer.BurnScoreAntitone | ml-service/models/health_scorer.py:117-133 | for non-zero revenue the burn score never rises as burn/revenue rises, and any ratio at or below 0 scores 100 |
| HealthScorer.RunwayScoreMonotone | ml-service/models/health_scorer.py:135-146 | more runway never gives a lower score |
| HealthScorer.GrowthScoreMonotone | ml-service/models/health_scorer.py:148-161 | more growth never gives a lower score |
| HealthScorer.ExpenseRatioScoreAntitone | ml-service/models/health_scorer.py:163-179 | for non-zero revenue a higher expense ratio never gives a higher score |
| HealthScorer.WeightsSumToOne | ml-service/config.py:48-55 | the six configured weights are positive and sum to 1 |
| HealthScorer.Components | ml-service/models/health_scorer.py:33-68 | every computed component lies in [20, 100] and the revenue trend is 70; an absent expenses key divides cash by 1, and an absent revenue key gives the burn score for zero revenue and the expense-ratio score for revenue 1 |
| HealthScorer.WeightedScore | ml-service/models/health_scorer.py:70-78 | the weighted score lies between the lowest and the highest component score, since the weights are non-negative and sum to 1 |
| HealthScorer.WeightedScoreMonotone | ml-service/models/health_scorer.py:70-78 | raising any component never lowers the weighted score |
| HealthScorer.WeightedScoreBounds | ml-service/models/health_scorer.py:67-78 | the unrounded overall score of any metrics lies in [25, 97] |
| HealthScorer.Round1 | ml-service/models/health_scorer.py:80 | the rounded score is a whole number of tenths within 0.05 of the unrounded one, strictly nearer off a tie, and the even tenth on a tie |
| HealthScorer.RoundedWithin | ml-service/models/health_scorer.py:80 | rounding keeps a score inside any interval with whole-number ends, so the reported score also lies in [25, 97] |
| HealthScorer.GradeOf | ml-service/models/health_scorer.py:181-204 | the grade is the best grade in the ladder whose floor the score reaches; A+ exactly from 90 up, F exactly below 40 |
| HealthScorer.GradeMonotone | ml-service/models/health_scorer.py:181-204 | a higher score never yields a worse grade |
| HealthScorer.GenerateInsights | ml-service/models/health_scorer.py:206-249 | raises exactly when monthly expenses or monthly revenue is given as 0; otherwise gives at most three insights: low cash iff coverage < 3, strong cash iff ≥ 12, excellent growth iff > 0.2, negative growth iff < 0, expenses exceed revenue iff ratio > 1, healthy ratio iff < 0.6; every insight reports the coverage, growth or ratio of its own topic, so no other insight can appear, and they come in the order cash, growth, expense ratio |
| HealthScorer.InsightsFor | ml-service/models/health_scorer.py:208-249 | for given coverage, growth and ratio: each of the six insights appears iff its threshold holds, each insight carries its topic's figure, at most one per topic, in topic order |
| HealthScorer.Insight.Kind | ml-service/models/health_scorer.py:212-246 | an insight's type is a warning exactly for low cash and negative growth, critical exactly for expenses exceeding revenue, and positive otherwise |
| HealthScorer.InsightTypes | ml-service/models/health_scorer.py:211-247 | a warning is among the insights exactly when cash covers under 3 months or growth is negative; a critical alert exactly when the expense ratio exceeds 1 |
| HealthScorer.CashInsightKinds | ml-service/models/health_scorer.py:211-221 | a low-cash insight of any figure appears iff coverage < 3, a strong-cash one iff coverage ≥ 12 |
| HealthScorer.GrowthInsightKinds | ml-service/models/health_scorer.py:224-233 | an excellent-growth insight appears iff growth > 0.2, a negative-growth one iff growth < 0 |
| HealthScorer.ExpenseInsightKinds | ml-service/models/health_scorer.py:237-247 | an expenses-exceed-revenue insight appears iff the ratio > 1, a healthy-ratio one iff the ratio < 0.6 |
| HealthScorer.InsightsAgreeWithScores | ml-service/models/health_scorer.py:210-247 | when insights are produced, the cash, growth and expense-ratio insights agree with the component scores computed from the same metrics |
| HealthScorer.ZeroGuardsUnreachable | ml-service/models/health_scorer.py:206-237 | in any report that is produced, the zero-expense guard (cash score 50) and the zero-revenue guard (expense-ratio score 30) have not fired |
| HealthScorer.GeneralAdvice | ml-service/models/health_scorer.py:287-299 | the critical general entry iff overall < 50, the low-priority one iff overall ≥ 80; no entry exactly when 50 ≤ overall < 80; at most one entry and no other kind |
| HealthScorer.GenerateRecommendations | ml-service/models/health_scorer.py:251-301 | cash management iff cash score < 60; cost control iff burn score < 50; growth iff growth score < 60; expense management iff expense-ratio score < 50; critical general iff overall < 50; low general iff overall ≥ 80, never both; at most five entries, each one of those six, in the order cash, cost, growth, expense, general |
| HealthScorer.CashAdviceFromMetrics | ml-service/models/health_scorer.py:255-261 | with non-zero monthly expenses, cash management is advised iff cash covers under 3 months |
| HealthScorer.CalculateScore | ml-service/models/health_scorer.py:12-97 | fails exactly on an explicit zero expenses or revenue; otherwise the score is a tenth within 0.05 of the weighted score of the computed components and lies in [25, 97]; the grade is the ladder grade of the score (A+ iff ≥ 90, F iff < 40); the insights are those generated from the same metrics and the recommendations those for the components and the score |
| Grouping.GroupSum | ml-service/api/routes.py:273-279 | the grouped keys are the entry keys, each once, in order of first appearance; the totals add up to the sum of all amounts; there are no more groups than entries, and none exactly when there are no entries |
| Grouping.GroupTotals | ml-service/api/routes.py:276-279 | the total under each key is the sum of the amounts of the entries with that key |
| Grouping.GroupDistinct | ml-service/api/routes.py:273-279 | no key is grouped twice, and every grouped key comes from some entry |
| StableSort.Sort | ml-service/api/routes.py:282-286 | the sorted list is a permutation of the input, of the same length, in non-increasing key order (the detector sorts its anomalies with the same function) |
| StableSort.SortIsStable | ml-service/api/routes.py:282-286 | the sort is non-increasing in the key, is a permutation of its input, and for every key value keeps the input order of the elements that have it |
| StableSort.PrefixHoldsLargest | ml-service/api/routes.py:282-286 | cutting a descending list after its first n entries leaves out nothing with a larger key than any entry kept |
| StableSort.SortDistinctBy | ml-service/api/routes.py:282-286 | sorting keeps distinct categories distinct |
| ExpensePatterns.CategoryKey | ml-service/api/routes.py:277 | the expense's category, or "Other" when it has none |
| ExpensePatterns.MonthKey | ml-service/api/routes.py:278 | "Unknown" without a date; otherwise the date's first seven characters, or the whole date when it is shorter |
| ExpensePatterns.TotalsConserveSpending | ml-service/api/routes.py:276-279 | category totals and monthly totals each add up to the total of all expense amounts |
| ExpensePatterns.DefaultKeys | ml-service/api/routes.py:277-278 | an expense with no category adds its amount to "Other", one with no date adds it to "Unknown", one with a date adds it to the date's first seven characters (the whole date when shorter) |
| ExpensePatterns.AppendAddsToOwnKey | ml-service/api/routes.py:276-279 | appending an expense adds its amount to the total under its own key |
| ExpensePatterns.CategoryTotalsMeaning | ml-service/api/routes.py:276-279 | each category appears once, only categories of some expense appear, in first-appearance order, and each total is that category's spending |
| ExpensePatterns.TopCategories | ml-service/api/routes.py:282-286 | min(5, number of categories) entries, each one of the category totals, in non-increasing order of total |
| ExpensePatterns.TopIsSortedPrefix | ml-service/api/routes.py:282-286 | the top categories are the first min(5, n) entries of a stable descending sort of the category totals |
| ExpensePatterns.TopCategoriesShape | ml-service/api/routes.py:282-286 | min(5, number of categories) entries, all taken from the category totals, with distinct categories |
| ExpensePatterns.TopCategoriesAreLargest | ml-service/api/routes.py:282-286 | top categories are in non-increasing order of total, and no category left out has a larger total than one kept |
| ExpensePatterns.TopCategoriesTiesKeepFirst | ml-service/api/routes.py:282-286 | among categories with equal totals, the kept ones are the first to have appeared |
| ExpensePatterns.MonthlyAverage | ml-service/api/routes.py:289 | 0 without expenses; otherwise there is at least one month and the average is the total spending divided by the number of months, which is the mean of the monthly totals |
| ExpensePatterns.AnalyzeExpensePatterns | ml-service/api/routes.py:268-307 | the top categories and monthly average are those defined above; trend "stable" and volatility "low" always; two insights: the first names the first top category or "N/A", the second reports the monthly average |
| ExpensePatterns.FirstInsightNamesLargest | ml-service/api/routes.py:304 | "N/A" exactly when there are no expenses; otherwise the named category has a total no other category exceeds |
| AnomalyDetector.SeverityOf | ml-service/models/anomaly_detector.py:155-164 | High iff \|s\| > 0.5, Medium iff 0.3 < \|s\| ≤ 0.5, Low iff \|s\| ≤ 0.3 |
| AnomalyDetector.SeverityByMagnitude | ml-service/models/anomaly_detector.py:155-164 | severity(s) == severity(-s), and a larger magnitude never gives a lower severity |
| AnomalyDetector.Mod1000 | ml-service/models/anomaly_detector.py:146 | Python's `% 1000` lies in [0, 1000) and is 0 exactly for whole multiples of 1000 |
| AnomalyDetector.RoundNumberBoundary | ml-service/models/anomaly_detector.py:146 | an amount is a suspicious round number exactly when it is a whole multiple of 1000 strictly above 5000: nothing at or below 5000 is, every k thousand with k > 5 is, 6500 is not |
| AnomalyDetector.ReasonClauses | ml-service/models/anomaly_detector.py:122-153 | category clause iff the category statistics exist and amount > mean + 2·std; overall clause iff amount > mean + 3·std; round-number clause iff amount % 1000 == 0 and amount > 5000; the default clause appears iff it is the only clause; never empty, never repeated, always in the order category, overall, round number, default |
| AnomalyDetector.ClauseText | ml-service/models/anomaly_detector.py:136-151 | every clause text is non-empty |
| AnomalyDetector.Join | ml-service/models/anomaly_detector.py:153 | a single part joins to itself, and a join starts with its first part followed by the separator |
| AnomalyDetector.ReasonText | ml-service/models/anomaly_detector.py:149-153 | the reason text is never empty |
| AnomalyDetector.ReasonWithoutStatistics | ml-service/models/anomaly_detector.py:145-153 | when no statistical clause fires, the reason is exactly the round-number clause or else the default clause |
| AnomalyDetector.FlaggedIndices | ml-service/models/anomaly_detector.py:67-69 | the flagged positions are exactly the positions whose prediction is -1, in increasing order |
| AnomalyDetector.Report | ml-service/models/anomaly_detector.py:70-82 | the entry refers to the expense's id, or to its index when it has none; it carries the expense's amount, its category or "Unknown", its date or "", its description or "", the reason text for the expense; its score is \|score\| ≥ 0 and its severity is that of the score |
| AnomalyDetector.Flagged | ml-service/models/anomaly_detector.py:67-82 | one entry per flagged position, in input order: the k-th entry is the report of the k-th expense predicted -1; so every such expense's report is in the list, once, and every entry is the report of some expense predicted -1 |
| AnomalyDetector.FlaggedScores | ml-service/models/anomaly_detector.py:67-82 | one entry per flagged position, never more than the expenses, each with a non-negative score and its matching severity |
| AnomalyDetector.Summarize | ml-service/models/anomaly_detector.py:87-94 | the count equals the list length, the rate lies in [0, 1], and the average score is non-negative and 0 for an empty list |
| AnomalyDetector.Detect | ml-service/models/anomaly_detector.py:26-95 | in every case the summary counts all expenses and as many detected anomalies as are listed; with fewer than 10 expenses, no anomalies and a summary of the count with 0 detected; otherwise the anomalies are a stable non-increasing-by-score permutation of the flagged entries, and the summary is that list's |
| AnomalyDetector.DetectSummary | ml-service/models/anomaly_detector.py:85-94 | the detected count is the number of -1 predictions and at most the number of expenses; the rate is count/total; the average is the mean score of the list |
| AnomalyDetector.ReportedIffFlagged | ml-service/models/anomaly_detector.py:67-82 | an expense predicted -1 is reported by detection, a position with any other prediction is not flagged, and every reported anomaly is the report of some expense predicted -1 |

## Left out

- The payroll engine is not modelled. Its processing, totals, lifecycle and aggregation code is not part of this model.
- The Flask transport is not modelled: route handlers, request validation, lazy singletons, the app factory and the runner. This is I/O plumbing. Only `analyze_expense_patterns` is modelled from `ml-service/api/routes.py`.
- Fitting and persistence are left out: the expense classifier, feature preparation, scaling, isolation-forest fitting and joblib loading and saving. These are library calls. The forest's predictions and scores enter `AnomalyDetector.Detect` as inputs.
- The category and overall mean/std statistics used by the reason rules come from pandas. They are inputs (`Statistics`) and the model does not check how they are computed.
- The cash-flow predictor is left out. It is floating-point numerics over numpy.
- Environment-variable configuration and directory creation are left out. Only the weights and the fixed revenue-trend score are used.
- Floats are exact reals. Binary rounding error in sums and in weights such as 0.15 is not modelled, and neither are NaN or infinities.
- `round(x, 1)` acts on the binary value of the weighted sum, and the model on the exact one. The two agree on every reachable score: each component is an integer from a fixed set, and each weighted term and partial sum is a multiple of 0.05 below 128 whose binary value is exact. Python's half-to-even rule on a tie such as 71.25 is therefore the rule `HealthScorer.Round1` states.
- AnomalyDetector.Join: its contract states the single-part case and the first part plus separator prefix, not the complete layout of every part.
- AnomalyDetector.ClauseText: the dollar figures that the category clause formats into its message are not rendered. All other f-string formatting is also omitted: insights keep the raw figure, and recommendations are identified by area and priority.
- An expense without an `amount` key cannot be represented: `amount` is a required field of `Expense`. The pattern analysis raises `KeyError` on such an expense (`ml-service/api/routes.py:277`). The detector returns before reading amounts when there are fewer than 10 expenses. With 10 or more, it raises `KeyError` at `df['amount']` (`ml-service/models/anomaly_detector.py:102`) when no expense in the call has an `amount`. When only some lack one, the missing values become NaN in the feature column and are filled with 0, and the detector raises only for a flagged expense without an amount: the reason rules read `expense['amount']` first (`ml-service/models/anomaly_detector.py:126`, called from line 71).
- A present `amount` that is `null` or not a number cannot be represented: `amount` is a `real`. The pattern analysis raises `TypeError` when it adds such a value (`ml-service/api/routes.py:277`). The detector raises at `np.log1p` on a string amount (`ml-service/models/anomaly_detector.py:103`). A `null` amount becomes NaN in the feature column, and the detector raises on it only when that expense is flagged, at the comparison of line 135 or 142.
- A `category`, `description` or `id` key that is present with the value `null` cannot be represented: these are `Option<string>` fields, and `None` stands for an absent key. `dict.get` applies its default only to an absent key, so the source groups such an amount under `None` rather than "Other" (`ml-service/api/routes.py:277`), and the detector reports `None` for the field (`ml-service/models/anomaly_detector.py:74-78`).
- When no expense has a `category` key, the source's category filter compares against an empty Series (`ml-service/models/anomaly_detector.py:130`). The resulting boolean indexer cannot be aligned, so the source raises as soon as any expense is flagged. `AnomalyDetector.Detect` instead takes the category statistics as an input, and with no entry for the category it leaves out the category clause and returns normally.
- A `date` that is `null` or not a string makes the pattern analysis raise `TypeError` when it slices the value (`ml-service/api/routes.py:278`). A date is an `Option<string>` in the model, so such a value cannot be represented.
- Metric values that are not numbers (strings, `null`) cannot be represented. The scorer raises on them with one exception: with `monthly_revenue` absent, `_score_burn_rate` takes its zero-revenue branch (`ml-service/models/health_scorer.py:119-120`), where a non-numeric `burn_rate` is simply not equal to 0 and scores 20. Nothing else reads `burn_rate`, so the source returns a report for such input that the model cannot express. The `debt_ratio` key is documented but never read, so it is not part of `Metrics`.
- An expense `id` is modelled as a string. A predicted label other than ±1 is simply "not -1", which matches the `pred == -1` test.

=== FILE: anomaly_detector.dfy ===
/**
 * What the anomaly detector does with the isolation forest's output: select
 * the expenses it flags, attach a score, a severity and a reason to each,
 * order them by score, and summarise.
 *
 * The forest itself (feature preparation, scaling, fitting, persistence) is
 * not modelled: its per-expense `predictions` (-1 marks an anomaly) and
 * `scores` are inputs, as are the mean and standard deviation statistics the
 * reason rules compare an amount against.
 */
module AnomalyDetector {
  import opened Expenses
  import StableSort

  /** Fewer expenses than this are not analysed at all. */
  const MinExpenses: nat := 10

  datatype Severity = High | Medium | Low

  /** How an anomaly refers to its expense: the expense's `id`, or its position. */
  datatype ExpenseRef = ById(id: string) | ByIndex(index: nat)

  datatype ReasonClause =
    | AboveCategoryAverage
    | ExtremeAmount
    | SuspiciousRoundNumber
    | StatisticalOutlier

  /** Mean and standard deviation of a set of amounts. */
  datatype Spread = Spread(mean: real, std: real)

  /**
   * The statistics the reason rules use: the spread of each category that has
   * more than one expense (keyed by the category name the rule looks up), and
   * the spread of all amounts.
   */
  datatype Statistics = Statistics(byCategory: map<string, Spread>, overall: Spread)

  datatype Anomaly = Anomaly(
    expense: ExpenseRef,
    amount: real,
    category: string,
    date: string,
    description: string,
    anomalyScore: real,
    reason: string,
    severity: Severity)

  datatype Summary =
    | TooFewExpenses(totalExpenses: nat, anomaliesDetected: nat)
    | Scored(totalExpenses: nat, anomaliesDetected: nat, anomalyRate: real, averageAnomalyScore: real)

  datatype Detection = Detection(anomalies: seq<Anomaly>, summary: Summary)

  function Abs(x: real): real {
    if x < 0.0 then -x else x
  }

  // ---------------------------------------------------------------------------
  // Severity.

  function SeverityOf(score: real): (s: Severity)
    ensures s == High <==> Abs(score) > 0.5
    ensures s == Medium <==> 0.3 < Abs(score) <= 0.5
    ensures s == Low <==> Abs(score) <= 0.3
  {
    var absScore := Abs(score);
    if absScore > 0.5 then High
    else if absScore > 0.3 then Medium
    else Low
  }

  function SeverityRank(s: Severity): nat {
    match s
    case High => 2
    case Medium => 1
    case Low => 0
  }

  /** Severity depends only on the magnitude of the score, and grows with it. */
  lemma SeverityByMagnitude(score1: real, score2: real)
    ensures SeverityOf(score1) == SeverityOf(-score1)
    ensures Abs(score1) <= Abs(score2) ==> SeverityRank(SeverityOf(score1)) <= SeverityRank(SeverityOf(score2))
  {
  }

  // ---------------------------------------------------------------------------
  // Reasons.

  /** Python's `x % 1000`: the remainder takes the sign of the modulus, so it is never negative. */
  function Mod1000(x: real): (r: real)
    ensures 0.0 <= r < 1000.0
    ensures r == 0.0 <==> (x / 1000.0).Floor as real == x / 1000.0
  {
    var q := (x / 1000.0).Floor;
    x - 1000.0 * q as real
  }

  /** `amount % 1000 == 0 and amount > 5000`. */
  predicate IsSuspiciousRoundNumber(amount: real) {
    Mod1000(amount) == 0.0 && amount > 5000.0
  }

  /** The category name the reason rules look up: the expense's own, or "Unknown". */
  function ReasonCategory(e: Expense): string {
    e.category.GetOr("Unknown")
  }

  /** The order in which the detector checks the rules; the default comes last. */
  function ClauseRank(c: ReasonClause): nat {
    match c
    case AboveCategoryAverage => 0
    case ExtremeAmount => 1
    case SuspiciousRoundNumber => 2
    case StatisticalOutlier => 3
  }

  /** The reason clauses for `e`, in the order the detector checks them. */
  function ReasonClauses(e: Expense, stats: Statistics): (r: seq<ReasonClause>)
    ensures 1 <= |r| <= 3
    ensures SuspiciousRoundNumber in r <==> IsSuspiciousRoundNumber(e.amount)
    ensures ExtremeAmount in r <==> e.amount > stats.overall.mean + 3.0 * stats.overall.std
    ensures AboveCategoryAverage in r <==>
      var c := ReasonCategory(e);
      c in stats.byCategory && e.amount > stats.byCategory[c].mean + 2.0 * stats.byCategory[c].std
    ensures StatisticalOutlier in r <==> r == [StatisticalOutlier]
    ensures forall i, j :: 0 <= i < j < |r| ==> r[i] != r[j]
    ensures forall i, j :: 0 <= i < j < |r| ==> ClauseRank(r[i]) < ClauseRank(r[j])
  {
    var category := ReasonCategory(e);
    var byCategory :=
      if category in stats.byCategory
         && e.amount > stats.byCategory[category].mean + 2.0 * stats.byCategory[category].std
      then [AboveCategoryAverage] else [];
    var overall :=
      if e.amount > stats.overall.mean + 3.0 * stats.overall.std then [ExtremeAmount] else [];
    var round := if IsSuspiciousRoundNumber(e.amount) then [SuspiciousRoundNumber] else [];
    var fired := byCategory + overall + round;
    if |fired| == 0 then [StatisticalOutlier] else fired
  }

  /** The text of a clause; the figures the category clause quotes are not rendered. */
  function ClauseText(c: ReasonClause): (t: string)
    ensures |t| > 0
  {
    match c
    case AboveCategoryAverage => "Amount is significantly higher than category average"
    case ExtremeAmount => "Extremely high amount compared to overall spending pattern"
    case SuspiciousRoundNumber => "Suspicious round number - may require verification"
    case StatisticalOutlier => "Statistical outlier detected in spending pattern"
  }

  /** Python's `sep.join(parts)`. */
  function Join(parts: seq<string>, sep: string): (r: string)
    ensures |parts| == 0 ==> r == ""
    ensures |parts| == 1 ==> r == parts[0]
    ensures |parts| >= 1 ==> parts[0] <= r
    ensures |parts| >= 2 ==> parts[0] + sep <= r && |r| >= |parts[0]| + |sep| + |parts[1]|
    decreases |parts|
  {
    if |parts| == 0 then ""
    else if |parts| == 1 then parts[0]
    else parts[0] + sep + Join(parts[1..], sep)
  }

  function ClauseTexts(clauses: seq<ReasonClause>): (r: seq<string>)
    ensures |r| == |clauses|
    ensures forall i :: 0 <= i < |r| ==> r[i] == ClauseText(clauses[i])
  {
    seq(|clauses|, i requires 0 <= i < |clauses| => ClauseText(clauses[i]))
  }

  /** The clauses joined with "; ". */
  function ReasonText(e: Expense, stats: Statistics): (r: string)
    ensures |r| > 0
  {
    var texts := ClauseTexts(ReasonClauses(e, stats));
    assert |texts[0]| > 0;
    Join(texts, "; ")
  }

  /** With no statistical clause firing, the reason is the round-number clause or the default. */
  lemma ReasonWithoutStatistics(e: Expense, stats: Statistics)
    requires ReasonCategory(e) !in stats.byCategory
    requires e.amount <= stats.overall.mean + 3.0 * stats.overall.std
    ensures IsSuspiciousRoundNumber(e.amount) ==>
      ReasonText(e, stats) == "Suspicious round number - may require verification"
    ensures !IsSuspiciousRoundNumber(e.amount) ==>
      ReasonText(e, stats) == "Statistical outlier detected in spending pattern"
  {
    var clauses := ReasonClauses(e, stats);
    assert |clauses| == 1;
  }

  /** `k` thousand, as an amount. */
  function Thousands(k: int): real {
    k as real * 1000.0
  }

  /**
   * The round-number rule for all amounts: exactly the whole multiples of 1000
   * strictly above 5000, whatever their other digits; 6000 is the first.
   */
  lemma RoundNumberBoundary()
    ensures forall x :: x <= 5000.0 ==> !IsSuspiciousRoundNumber(x)
    ensures forall x :: IsSuspiciousRoundNumber(x) <==> x > 5000.0 && (x / 1000.0).Floor as real == x / 1000.0
    ensures forall k: int :: k > 5 ==> IsSuspiciousRoundNumber(Thousands(k))
    ensures IsSuspiciousRoundNumber(6000.0) && !IsSuspiciousRoundNumber(6500.0)
  {
    forall k: int | k > 5
      ensures IsSuspiciousRoundNumber(Thousands(k))
    {
      assert Thousands(k) / 1000.0 == k as real;
    }
    assert (6500.0 / 1000.0).Floor == 6;
  }

  // ---------------------------------------------------------------------------
  // Selecting and ordering the flagged expenses.

  /** Positions whose prediction is -1, in increasing order. */
  function FlaggedIndices(predictions: seq<int>): (r: seq<nat>)
    ensures |r| <= |predictions|
    ensures forall k :: 0 <= k < |r| ==> r[k] < |predictions| && predictions[r[k]] == -1
    ensures forall i :: 0 <= i < |predictions| && predictions[i] == -1 ==> i in r
    ensures forall k, l :: 0 <= k < l < |r| ==> r[k] < r[l]
    decreases |predictions|
  {
    if |predictions| == 0 then []
    else
      var n := |predictions| - 1;
      FlaggedIndices(predictions[..n]) + (if predictions[n] == -1 then [n] else [])
  }

  /** The report entry for the expense at position `i`. */
  function Report(expenses: seq<Expense>, scores: seq<real>, stats: Statistics, i: nat): (a: Anomaly)
    requires i < |expenses| && i < |scores|
    ensures a.expense == (if expenses[i].id.Some? then ById(expenses[i].id.value) else ByIndex(i))
    ensures a.anomalyScore == Abs(scores[i]) && a.anomalyScore >= 0.0
    ensures a.severity == SeverityOf(a.anomalyScore)
    ensures a.amount == expenses[i].amount
    ensures a.reason == ReasonText(expenses[i], stats)
    ensures a.category == (if expenses[i].category.Some? then expenses[i].category.value else "Unknown")
    ensures a.date == (if expenses[i].date.Some? then expenses[i].date.value else "")
    ensures a.description == (if expenses[i].description.Some? then expenses[i].description.value else "")
  {
    var e := expenses[i];
    Anomaly(
      expense := if e.id.Some? then ById(e.id.value) else ByIndex(i),
      amount := e.amount,
      category := e.category.GetOr("Unknown"),
      date := e.date.GetOr(""),
      description := e.description.GetOr(""),
      anomalyScore := Abs(scores[i]),
      reason := ReasonText(e, stats),
      severity := SeverityOf(scores[i]))
  }

  /** `a` is the report of some expense predicted -1. */
  ghost predicate ReportOfFlagged(a: Anomaly, expenses: seq<Expense>, predictions: seq<int>, scores: seq<real>, stats: Statistics)
    requires |predictions| == |expenses| && |scores| == |expenses|
  {
    exists i :: 0 <= i < |expenses| && predictions[i] == -1 && a == Report(expenses, scores, stats, i)
  }

  /**
   * Entries for the flagged expenses, in input order: one per -1 prediction,
   * and each one the report of an expense predicted -1.
   */
  function Flagged(expenses: seq<Expense>, predictions: seq<int>, scores: seq<real>, stats: Statistics): (r: seq<Anomaly>)
    requires |predictions| == |expenses| && |scores| == |expenses|
    ensures |r| == |FlaggedIndices(predictions)|
    ensures forall k :: 0 <= k < |r| ==> r[k] == Report(expenses, scores, stats, FlaggedIndices(predictions)[k])
    ensures forall i :: 0 <= i < |expenses| && predictions[i] == -1 ==> Report(expenses, scores, stats, i) in r
    ensures forall a :: a in r ==> ReportOfFlagged(a, expenses, predictions, scores, stats)
  {
    var idx := FlaggedIndices(predictions);
    var r := seq(|idx|, k requires 0 <= k < |idx| => Report(expenses, scores, stats, idx[k]));
    IndexedReportsComplete(expenses, predictions, scores, stats, r);
    IndexedReportsSound(expenses, predictions, scores, stats, r);
    r
  }

  /** Every expense predicted -1 has its report among the reports taken at the flagged positions. */
  lemma IndexedReportsComplete(expenses: seq<Expense>, predictions: seq<int>, scores: seq<real>, stats: Statistics, r: seq<Anomaly>)
    requires |predictions| == |expenses| && |scores| == |expenses|
    requires |r| == |FlaggedIndices(predictions)|
    requires forall k :: 0 <= k < |r| ==> r[k] == Report(expenses, scores, stats, FlaggedIndices(predictions)[k])
    ensures forall i :: 0 <= i < |expenses| && predictions[i] == -1 ==> Report(expenses, scores, stats, i) in r
  {
    var idx := FlaggedIndices(predictions);
    forall i | 0 <= i < |expenses| && predictions[i] == -1
      ensures Report(expenses, scores, stats, i) in r
    {
      assert i in idx;
      var k :| 0 <= k < |idx| && idx[k] == i;
      assert r[k] == Report(expenses, scores, stats, idx[k]);
      assert r[k] in r;
    }
  }

  /** Every report taken at a flagged position is the report of an expense predicted -1. */
  lemma IndexedReportsSound(expenses: seq<Expense>, predictions: seq<int>, scores: seq<real>, stats: Statistics, r: seq<Anomaly>)
    requires |predictions| == |expenses| && |scores| == |expenses|
    requires |r| == |FlaggedIndices(predictions)|
    requires forall k :: 0 <= k < |r| ==> r[k] == Report(expenses, scores, stats, FlaggedIndices(predictions)[k])
    ensures forall a :: a in r ==> ReportOfFlagged(a, expenses, predictions, scores, stats)
  {
    var idx := FlaggedIndices(predictions);
    forall a | a in r ensures ReportOfFlagged(a, expenses, predictions, scores, stats)
    {
      var k :| 0 <= k < |r| && r[k] == a;
      var i := idx[k];
      assert 0 <= i < |expenses| && predictions[i] == -1 && a == Report(expenses, scores, stats, i);
    }
  }

  function ScoreKey(a: Anomaly): real {
    a.anomalyScore
  }

  function SumScores(anomalies: seq<Anomaly>): real
    decreases |anomalies|
  {
    if |anomalies| == 0 then 0.0 else anomalies[0].anomalyScore + SumScores(anomalies[1..])
  }

  lemma {:induction false} SumScoresNonNegative(anomalies: seq<Anomaly>)
    requires forall a :: a in anomalies ==> a.anomalyScore >= 0.0
    ensures SumScores(anomalies) >= 0.0
    decreases |anomalies|
  {
    if |anomalies| > 0 {
      assert anomalies[0] in anomalies;
      SumScoresNonNegative(anomalies[1..]);
    }
  }

  lemma RateWithinUnit(count: nat, total: nat)
    requires count <= total && total > 0
    ensures 0.0 <= count as real / total as real <= 1.0
  {
  }

  /** The summary of the sorted anomaly list out of `total` expenses. */
  function Summarize(anomalies: seq<Anomaly>, total: nat): (s: Summary)
    requires |anomalies| <= total && total > 0
    requires forall a :: a in anomalies ==> a.anomalyScore >= 0.0
    ensures s.Scored? && s.totalExpenses == total && s.anomaliesDetected == |anomalies|
    ensures 0.0 <= s.anomalyRate <= 1.0
    ensures |anomalies| == 0 ==> s.averageAnomalyScore == 0.0
    ensures s.averageAnomalyScore >= 0.0
  {
    var count := |anomalies|;
    RateWithinUnit(count, total);
    SumScoresNonNegative(anomalies);
    var average := if count == 0 then 0.0 else SumScores(anomalies) / count as real;
    Scored(total, count, count as real / total as real, average)
  }

  /** `detect`, after the forest has produced `predictions` and `scores`. */
  function Detect(expenses: seq<Expense>, predictions: seq<int>, scores: seq<real>, stats: Statistics): (r: Detection)
    requires |expenses| >= MinExpenses ==> |predictions| == |expenses| && |scores| == |expenses|
    ensures |expenses| < MinExpenses ==> r.anomalies == [] && r.summary == TooFewExpenses(|expenses|, 0)
    ensures |expenses| >= MinExpenses ==>
      && StableSort.StablySorted(r.anomalies, Flagged(expenses, predictions, scores, stats), ScoreKey)
      && |r.anomalies| <= |expenses|
      && (forall a :: a in r.anomalies ==> a.anomalyScore >= 0.0)
      && r.summary == Summarize(r.anomalies, |expenses|)
    ensures r.summary.totalExpenses == |expenses| && r.summary.anomaliesDetected == |r.anomalies|
  {
    if |expenses| < MinExpenses then Detection([], TooFewExpenses(|expenses|, 0))
    else
      var flagged := Flagged(expenses, predictions, scores, stats);
      var anomalies := StableSort.Sort(flagged, ScoreKey);
      StableSort.SortIsStable(flagged, ScoreKey);
      FlaggedScores(expenses, predictions, scores, stats);
      forall a | a in anomalies ensures a.anomalyScore >= 0.0
      {
        assert a in multiset(flagged);
      }
      Detection(anomalies, Summarize(anomalies, |expenses|))
  }

  lemma FlaggedScores(expenses: seq<Expense>, predictions: seq<int>, scores: seq<real>, stats: Statistics)
    requires |predictions| == |expenses| && |scores| == |expenses|
    ensures |Flagged(expenses, predictions, scores, stats)| == |FlaggedIndices(predictions)| <= |expenses|
    ensures forall a :: a in Flagged(expenses, predictions, scores, stats) ==>
      a.anomalyScore >= 0.0 && a.severity == SeverityOf(a.anomalyScore)
  {
  }

  /**
   * The summary of a detection run: one entry per -1 prediction, never more
   * than the expenses, the rate is their share, and every score is a magnitude.
   */
  lemma DetectSummary(expenses: seq<Expense>, predictions: seq<int>, scores: seq<real>, stats: Statistics)
    requires |predictions| == |expenses| && |scores| == |expenses|
    requires |expenses| >= MinExpenses
    ensures var r := Detect(expenses, predictions, scores, stats);
      && r.summary.anomaliesDetected == |r.anomalies| == |FlaggedIndices(predictions)|
      && r.summary.anomaliesDetected <= r.summary.totalExpenses == |expenses|
      && r.summary.anomalyRate == |r.anomalies| as real / |expenses| as real
      && (|r.anomalies| > 0 ==> r.summary.averageAnomalyScore == SumScores(r.anomalies) / |r.anomalies| as real)
      && (forall a :: a in r.anomalies ==> a.anomalyScore >= 0.0 && a.severity == SeverityOf(a.anomalyScore))
  {
    var r := Detect(expenses, predictions, scores, stats);
    var flagged := Flagged(expenses, predictions, scores, stats);
    FlaggedScores(expenses, predictions, scores, stats);
    assert |r.anomalies| == |flagged| by {
      assert |multiset(r.anomalies)| == |multiset(flagged)|;
    }
    forall a | a in r.anomalies ensures a.anomalyScore >= 0.0 && a.severity == SeverityOf(a.anomalyScore)
    {
      assert a in multiset(flagged);
    }
  }

  /** An expense is reported exactly when its prediction is -1. */
  lemma ReportedIffFlagged(expenses: seq<Expense>, predictions: seq<int>, scores: seq<real>, stats: Statistics, i: nat)
    requires |predictions| == |expenses| && |scores| == |expenses| && i < |expenses|
    requires |expenses| >= MinExpenses
    ensures predictions[i] == -1 ==>
      Report(expenses, scores, stats, i) in Detect(expenses, predictions, scores, stats).anomalies
    ensures predictions[i] != -1 ==> i !in FlaggedIndices(predictions)
    ensures forall a :: a in Detect(expenses, predictions, scores, stats).anomalies ==>
      ReportOfFlagged(a, expenses, predictions, scores, stats)
  {
    var idx := FlaggedIndices(predictions);
    var flagged := Flagged(expenses, predictions, scores, stats);
    if predictions[i] == -1 {
      var k :| 0 <= k < |idx| && idx[k] == i;
      assert flagged[k] == Report(expenses, scores, stats, i);
      assert Report(expenses, scores, stats, i) in multiset(flagged);
    }
    forall a | a in Detect(expenses, predictions, scores, stats).anomalies
      ensures ReportOfFlagged(a, expenses, predictions, scores, stats)
    {
      assert a in multiset(flagged);
    }
  }
}

=== FILE: expense_patterns.dfy ===
/**
 * Basic spending-pattern analysis: totals per category and per year-month,
 * the five largest categories, and the average monthly total.
 */
module ExpensePatterns {
  import opened Expenses
  import opened Grouping
  import StableSort
  import opened Numbers

  /** How many categories the analysis reports. */
  const TopCategoryLimit: nat := 5

  /** The text used when there is no top category to name. */
  const NoCategory: string := "N/A"

  datatype PatternInsight =
    | TopSpendingCategory(name: string)
    | AverageMonthlySpending(amount: real)

  datatype PatternReport = PatternReport(
    topCategories: seq<Total>,
    monthlyAverage: real,
    trendDirection: string,
    volatility: string,
    insights: seq<PatternInsight>)

  /** The category an expense is counted under: its own, or "Other" when it has none. */
  function CategoryKey(e: Expense): (r: string)
    ensures e.category.Some? ==> r == e.category.value
    ensures e.category.None? ==> r == "Other"
  {
    e.category.GetOr("Other")
  }

  /**
   * The month an expense is counted under: "Unknown" without a date, else the
   * Python slice `date[:7]`, which keeps a shorter date whole.
   */
  function MonthKey(e: Expense): (r: string)
    ensures e.date.None? ==> r == "Unknown"
    ensures e.date.Some? ==> r == e.date.value[..Min(7, |e.date.value|)]
    ensures e.date.Some? ==> |r| <= 7 && r <= e.date.value
  {
    match e.date
    case None => "Unknown"
    case Some(d) => if |d| <= 7 then d else d[..7]
  }

  /** The (key, amount) contributions of the expenses, in input order. */
  function KeyedBy(expenses: seq<Expense>, keyOf: Expense -> string): seq<Entry> {
    seq(|expenses|, i requires 0 <= i < |expenses| => Entry(keyOf(expenses[i]), expenses[i].amount))
  }

  function CategoryTotals(expenses: seq<Expense>): seq<Total> {
    GroupSum(KeyedBy(expenses, CategoryKey))
  }

  function MonthlyTotals(expenses: seq<Expense>): seq<Total> {
    GroupSum(KeyedBy(expenses, MonthKey))
  }

  /** The sort key of a category total. */
  function TotalKey(t: Total): real {
    t.total
  }

  function CategoryName(t: Total): string {
    t.key
  }

  /**
   * Category totals stably sorted into descending order, cut to the first
   * five: as many as there are categories up to five, each one a category
   * total, largest first.
   */
  function TopCategories(expenses: seq<Expense>): (r: seq<Total>)
    ensures |r| == Min(TopCategoryLimit, |CategoryTotals(expenses)|)
    ensures forall t :: t in r ==> t in CategoryTotals(expenses)
    ensures StableSort.Descending(r, TotalKey)
  {
    var sorted := StableSort.Sort(CategoryTotals(expenses), TotalKey);
    var top := sorted[..Min(TopCategoryLimit, |sorted|)];
    assert forall t :: t in top ==> t in multiset(sorted);
    top
  }

  /**
   * The mean of the monthly totals, or 0 when there are none. Since the
   * monthly totals add up to all spending, the mean is the total spending
   * divided by the number of distinct months.
   */
  function MonthlyAverage(expenses: seq<Expense>): (r: real)
    ensures |expenses| == 0 ==> r == 0.0
    ensures |expenses| > 0 ==>
      && |MonthlyTotals(expenses)| > 0
      && r == TotalAmount(expenses) / |MonthlyTotals(expenses)| as real
  {
    var months := MonthlyTotals(expenses);
    TotalsConserveSpending(expenses);
    if |months| == 0 then 0.0 else SumTotals(months) / |months| as real
  }

  function AnalyzeExpensePatterns(expenses: seq<Expense>): (r: PatternReport)
    ensures |r.topCategories| <= TopCategoryLimit
    ensures |r.insights| == 2
    ensures r.insights[0] == TopSpendingCategory(
      if |r.topCategories| == 0 then NoCategory else r.topCategories[0].key)
    ensures r.insights[1] == AverageMonthlySpending(r.monthlyAverage)
    ensures r.topCategories == TopCategories(expenses)
    ensures r.monthlyAverage == MonthlyAverage(expenses)
    ensures r.trendDirection == "stable" && r.volatility == "low"
  {
    var top := TopCategories(expenses);
    var average := MonthlyAverage(expenses);
    PatternReport(
      topCategories := top,
      monthlyAverage := average,
      trendDirection := "stable",
      volatility := "low",
      insights := [
        TopSpendingCategory(if |top| == 0 then NoCategory else top[0].key),
        AverageMonthlySpending(average)
      ])
  }

  // ---------------------------------------------------------------------------
  // Properties.

  lemma {:induction false} KeyedBySum(expenses: seq<Expense>, keyOf: Expense -> string)
    ensures SumAmounts(KeyedBy(expenses, keyOf)) == TotalAmount(expenses)
    decreases |expenses|
  {
    if |expenses| > 0 {
      var init := expenses[..|expenses| - 1];
      assert KeyedBy(expenses, keyOf)[..|expenses| - 1] == KeyedBy(init, keyOf);
      KeyedBySum(init, keyOf);
    }
  }

  /** Both groupings conserve money: their totals add up to the sum of all amounts. */
  lemma TotalsConserveSpending(expenses: seq<Expense>)
    ensures SumTotals(CategoryTotals(expenses)) == TotalAmount(expenses)
    ensures SumTotals(MonthlyTotals(expenses)) == TotalAmount(expenses)
  {
    KeyedBySum(expenses, CategoryKey);
    KeyedBySum(expenses, MonthKey);
  }

  /**
   * An expense without a category adds its amount to "Other"; one without a
   * date adds it to "Unknown"; one with a date adds it to the date's first
   * seven characters.
   */
  lemma DefaultKeys(expenses: seq<Expense>, e: Expense)
    ensures e.category.None? ==>
      TotalOf(CategoryTotals(expenses + [e]), "Other") == TotalOf(CategoryTotals(expenses), "Other") + e.amount
    ensures e.date.None? ==>
      TotalOf(MonthlyTotals(expenses + [e]), "Unknown") == TotalOf(MonthlyTotals(expenses), "Unknown") + e.amount
    ensures e.date.Some? ==>
      var month := e.date.value[..Min(7, |e.date.value|)];
      TotalOf(MonthlyTotals(expenses + [e]), month) == TotalOf(MonthlyTotals(expenses), month) + e.amount
  {
    AppendAddsToOwnKey(expenses, e, CategoryKey);
    AppendAddsToOwnKey(expenses, e, MonthKey);
  }

  /** Appending an expense adds its amount to the total under its own key. */
  lemma AppendAddsToOwnKey(expenses: seq<Expense>, e: Expense, keyOf: Expense -> string)
    ensures TotalOf(GroupSum(KeyedBy(expenses + [e], keyOf)), keyOf(e))
      == TotalOf(GroupSum(KeyedBy(expenses, keyOf)), keyOf(e)) + e.amount
  {
    var all := expenses + [e];
    assert KeyedBy(all, keyOf)[..|expenses|] == KeyedBy(expenses, keyOf);
    AddTotalOf(GroupSum(KeyedBy(expenses, keyOf)), keyOf(e), e.amount, keyOf(e));
  }

  /**
   * Each category appears once, exactly the categories of some expense appear,
   * and each total is the sum of the amounts counted under that category.
   */
  lemma CategoryTotalsMeaning(expenses: seq<Expense>)
    ensures DistinctKeys(CategoryTotals(expenses))
    ensures forall t :: t in CategoryTotals(expenses) ==>
      && (exists e :: e in expenses && CategoryKey(e) == t.key)
      && t.total == AmountFor(KeyedBy(expenses, CategoryKey), t.key)
    ensures Keys(CategoryTotals(expenses)) == FirstAppearances(KeyedBy(expenses, CategoryKey))
  {
    var entries := KeyedBy(expenses, CategoryKey);
    var g := CategoryTotals(expenses);
    GroupDistinct(entries);
    forall t | t in g
      ensures exists e :: e in expenses && CategoryKey(e) == t.key
      ensures t.total == AmountFor(entries, t.key)
    {
      var en :| en in entries && en.key == t.key;
      var k :| 0 <= k < |entries| && entries[k] == en;
      assert expenses[k] in expenses;
      var i :| 0 <= i < |g| && g[i] == t;
      TotalOfItem(g, i);
      GroupTotals(entries, t.key);
    }
  }

  /** The top categories are the first entries of the stable descending sort. */
  lemma TopIsSortedPrefix(expenses: seq<Expense>)
    ensures var sorted := StableSort.Sort(CategoryTotals(expenses), TotalKey);
      && StableSort.StablySorted(sorted, CategoryTotals(expenses), TotalKey)
      && |sorted| == |CategoryTotals(expenses)|
      && TopCategories(expenses) == sorted[..Min(TopCategoryLimit, |sorted|)]
  {
    StableSort.SortIsStable(CategoryTotals(expenses), TotalKey);
  }

  /** At most five entries, each taken from the category totals, with distinct categories. */
  lemma TopCategoriesShape(expenses: seq<Expense>)
    ensures |TopCategories(expenses)| == Min(TopCategoryLimit, |CategoryTotals(expenses)|)
    ensures forall t :: t in TopCategories(expenses) ==> t in CategoryTotals(expenses)
    ensures StableSort.DistinctBy(TopCategories(expenses), CategoryName)
  {
    var all := CategoryTotals(expenses);
    var sorted := StableSort.Sort(all, TotalKey);
    TopIsSortedPrefix(expenses);
    CategoryTotalsMeaning(expenses);
    StableSort.SortDistinctBy(all, TotalKey, CategoryName);
    forall t | t in TopCategories(expenses) ensures t in all
    {
      assert t in multiset(sorted);
    }
  }

  /**
   * Top categories are in non-increasing order of total, and no category left
   * out has a larger total than one kept.
   */
  lemma TopCategoriesAreLargest(expenses: seq<Expense>)
    ensures StableSort.Descending(TopCategories(expenses), TotalKey)
    ensures forall t, u ::
      (t in TopCategories(expenses) && u in CategoryTotals(expenses) && u !in TopCategories(expenses))
      ==> u.total <= t.total
  {
    var all := CategoryTotals(expenses);
    var sorted := StableSort.Sort(all, TotalKey);
    TopIsSortedPrefix(expenses);
    StableSort.PrefixHoldsLargest(sorted, |TopCategories(expenses)|, TotalKey);
    forall u | u in all ensures u in sorted
    {
      assert u in multiset(sorted);
    }
  }

  /**
   * Ties keep first-appearance order: for every total, the kept categories with
   * that total are the first ones, in appearance order, among all categories
   * with that total.
   */
  lemma TopCategoriesTiesKeepFirst(expenses: seq<Expense>, v: real)
    ensures WithKeyPrefix(StableSort.WithKey(TopCategories(expenses), TotalKey, v),
                          StableSort.WithKey(CategoryTotals(expenses), TotalKey, v))
  {
    var sorted := StableSort.Sort(CategoryTotals(expenses), TotalKey);
    TopIsSortedPrefix(expenses);
    StableSort.PrefixWithKey(sorted, |TopCategories(expenses)|, TotalKey, v);
  }

  ghost predicate WithKeyPrefix(a: seq<Total>, b: seq<Total>) {
    |a| <= |b| && a == b[..|a|]
  }

  /** The first insight names a category whose total no other category exceeds. */
  lemma FirstInsightNamesLargest(expenses: seq<Expense>)
    ensures var r := AnalyzeExpensePatterns(expenses);
      && (|expenses| == 0 <==> r.insights[0] == TopSpendingCategory(NoCategory) && |r.topCategories| == 0)
      && (|expenses| > 0 ==>
            exists t :: t in CategoryTotals(expenses) && r.insights[0] == TopSpendingCategory(t.key)
              && forall u :: u in CategoryTotals(expenses) ==> u.total <= t.total)
  {
    var all := CategoryTotals(expenses);
    var top := TopCategories(expenses);
    TopCategoriesShape(expenses);
    TopCategoriesAreLargest(expenses);
    if |expenses| > 0 {
      var t := top[0];
      forall u | u in all ensures u.total <= t.total
      {
        if u in top {
          var j :| 0 <= j < |top| && top[j] == u;
          if j > 0 {
            assert TotalKey(top[j]) <= TotalKey(top[0]);
          }
        }
      }
    }
  }
}

=== FILE: expenses.dfy ===
/** The expense record that the analytics service receives as JSON. */
module Expenses {
  import opened Wrappers

  /**
   * One expense. `amount` is required by every consumer; the other keys may be
   * absent, which each consumer replaces by its own default.
   */
  datatype Expense = Expense(
    id: Option<string>,
    amount: real,
    category: Option<string>,
    date: Option<string>,
    description: Option<string>)

  /** Sum of the amounts, accumulated left to right. */
  function TotalAmount(expenses: seq<Expense>): real
    decreases |expenses|
  {
    if |expenses| == 0 then 0.0
    else TotalAmount(expenses[..|expenses| - 1]) + expenses[|expenses| - 1].amount
  }
}

=== FILE: grouping.dfy ===
/**
 * A `defaultdict(float)` filled by `totals[key] += amount` over a list of
 * (key, amount) entries. Python dictionaries iterate in insertion order, so the
 * grouped totals are modelled as an association list whose keys appear in
 * order of first appearance.
 */
module Grouping {

  /** One (key, amount) contribution. */
  datatype Entry = Entry(key: string, amount: real)

  /** One dictionary item: a key and its accumulated total. */
  datatype Total = Total(key: string, total: real)

  function Keys(g: seq<Total>): seq<string>
    decreases |g|
  {
    if |g| == 0 then [] else [g[0].key] + Keys(g[1..])
  }

  ghost predicate Distinct(s: seq<string>) {
    forall i, j :: 0 <= i < j < |s| ==> s[i] != s[j]
  }

  ghost predicate DistinctKeys(g: seq<Total>) {
    forall i, j :: 0 <= i < j < |g| ==> g[i].key != g[j].key
  }

  /** Sum of all totals. */
  function SumTotals(g: seq<Total>): real
    decreases |g|
  {
    if |g| == 0 then 0.0 else g[0].total + SumTotals(g[1..])
  }

  /** The total stored under `key`; 0 when the key is absent (the defaultdict default). */
  function TotalOf(g: seq<Total>, key: string): real
    decreases |g|
  {
    if |g| == 0 then 0.0
    else if g[0].key == key then g[0].total
    else TotalOf(g[1..], key)
  }

  /** `totals[key] += amount`: update the existing item in place, or append a new one. */
  function Add(g: seq<Total>, key: string, amount: real): seq<Total>
    decreases |g|
  {
    if |g| == 0 then [Total(key, amount)]
    else if g[0].key == key then [Total(key, g[0].total + amount)] + g[1..]
    else [g[0]] + Add(g[1..], key, amount)
  }

  /**
   * The dictionary after processing `entries` from left to right: its keys are
   * the entry keys in order of first appearance, and it loses and invents no
   * money. The total under each key is `GroupTotals`.
   */
  function GroupSum(entries: seq<Entry>): (r: seq<Total>)
    ensures Keys(r) == FirstAppearances(entries)
    ensures SumTotals(r) == SumAmounts(entries)
    ensures |r| <= |entries|
    ensures |r| == 0 <==> |entries| == 0
    decreases |entries|
  {
    if |entries| == 0 then []
    else
      var last := entries[|entries| - 1];
      var init := GroupSum(entries[..|entries| - 1]);
      AddKeys(init, last.key, last.amount);
      AddSum(init, last.key, last.amount);
      KeysIndex(init);
      KeysIndex(Add(init, last.key, last.amount));
      Add(init, last.key, last.amount)
  }

  // ---------------------------------------------------------------------------
  // Reference definitions the grouped result is compared against.

  /** Sum of all entry amounts. */
  function SumAmounts(entries: seq<Entry>): real
    decreases |entries|
  {
    if |entries| == 0 then 0.0
    else SumAmounts(entries[..|entries| - 1]) + entries[|entries| - 1].amount
  }

  /** Sum of the amounts of the entries carrying `key`. */
  function AmountFor(entries: seq<Entry>, key: string): real
    decreases |entries|
  {
    if |entries| == 0 then 0.0
    else
      var last := entries[|entries| - 1];
      AmountFor(entries[..|entries| - 1], key) + (if last.key == key then last.amount else 0.0)
  }

  /** The keys of `entries`, each once, in order of first appearance. */
  function FirstAppearances(entries: seq<Entry>): (r: seq<string>)
    decreases |entries|
  {
    if |entries| == 0 then []
    else
      var seen := FirstAppearances(entries[..|entries| - 1]);
      var k := entries[|entries| - 1].key;
      if k in seen then seen else seen + [k]
  }

  // ---------------------------------------------------------------------------
  // Properties of one `+=`.

  lemma {:induction false} AddSum(g: seq<Total>, key: string, amount: real)
    ensures SumTotals(Add(g, key, amount)) == SumTotals(g) + amount
    decreases |g|
  {
    if |g| > 0 && g[0].key != key {
      AddSum(g[1..], key, amount);
      assert ([g[0]] + Add(g[1..], key, amount))[1..] == Add(g[1..], key, amount);
    } else if |g| > 0 {
      assert ([Total(key, g[0].total + amount)] + g[1..])[1..] == g[1..];
    }
  }

  lemma {:induction false} AddTotalOf(g: seq<Total>, key: string, amount: real, k: string)
    ensures TotalOf(Add(g, key, amount), k) == TotalOf(g, k) + (if k == key then amount else 0.0)
    decreases |g|
  {
    if |g| > 0 && g[0].key != key {
      AddTotalOf(g[1..], key, amount, k);
      assert ([g[0]] + Add(g[1..], key, amount))[1..] == Add(g[1..], key, amount);
    } else if |g| > 0 {
      assert ([Total(key, g[0].total + amount)] + g[1..])[1..] == g[1..];
    }
  }

  lemma {:induction false} AddKeys(g: seq<Total>, key: string, amount: real)
    ensures Keys(Add(g, key, amount)) == if key in Keys(g) then Keys(g) else Keys(g) + [key]
    decreases |g|
  {
    if |g| == 0 {
      assert Keys([Total(key, amount)]) == [key] + Keys([]);
    } else if g[0].key == key {
      var r := [Total(key, g[0].total + amount)] + g[1..];
      assert r[1..] == g[1..];
      assert Keys(r) == [key] + Keys(g[1..]);
    } else {
      var rest := Add(g[1..], key, amount);
      AddKeys(g[1..], key, amount);
      assert ([g[0]] + rest)[1..] == rest;
      assert key in Keys(g) <==> key in Keys(g[1..]);
    }
  }

  lemma {:induction false} KeysIndex(g: seq<Total>)
    ensures |Keys(g)| == |g|
    ensures forall i :: 0 <= i < |g| ==> Keys(g)[i] == g[i].key
    decreases |g|
  {
    if |g| > 0 {
      KeysIndex(g[1..]);
    }
  }

  /** A key recorded in the association list is looked up at its own item. */
  lemma TotalOfItem(g: seq<Total>, i: nat)
    requires DistinctKeys(g) && i < |g|
    ensures TotalOf(g, g[i].key) == g[i].total
    decreases i
  {
    if i > 0 {
      TotalOfItem(g[1..], i - 1);
    }
  }

  // ---------------------------------------------------------------------------
  // Properties of the whole grouping.

  lemma {:induction false} FirstAppearancesDistinct(entries: seq<Entry>)
    ensures Distinct(FirstAppearances(entries))
    ensures forall k :: k in FirstAppearances(entries) <==> exists e :: e in entries && e.key == k
    decreases |entries|
  {
    if |entries| > 0 {
      var init := entries[..|entries| - 1];
      FirstAppearancesDistinct(init);
      assert entries == init + [entries[|entries| - 1]];
      var seen := FirstAppearances(init);
      var k := entries[|entries| - 1].key;
      if k !in seen {
        var f := seen + [k];
        forall i, j | 0 <= i < j < |f| ensures f[i] != f[j]
        {
          if j == |seen| {
            assert f[i] in seen;
          } else {
            assert f[i] == seen[i] && f[j] == seen[j];
          }
        }
      }
      forall k ensures k in FirstAppearances(entries) <==> exists e :: e in entries && e.key == k
      {
        if k in FirstAppearances(entries) && k !in FirstAppearances(init) {
          assert entries[|entries| - 1] in entries;
        }
        if k !in FirstAppearances(init) {
          assert forall e :: e in entries && e.key == k ==> e == entries[|entries| - 1] || e in init;
        }
      }
    }
  }

  /** Every key appears once in the grouped result, and only keys of some entry appear. */
  lemma GroupDistinct(entries: seq<Entry>)
    ensures DistinctKeys(GroupSum(entries))
    ensures forall t :: t in GroupSum(entries) ==> exists e :: e in entries && e.key == t.key
  {
    var g := GroupSum(entries);
    KeysIndex(g);
    FirstAppearancesDistinct(entries);
    forall t | t in g ensures exists e :: e in entries && e.key == t.key
    {
      var i :| 0 <= i < |g| && g[i] == t;
      assert Keys(g)[i] in FirstAppearances(entries);
    }
  }

  /** The total under each key is the sum of the amounts of the entries with that key. */
  lemma {:induction false} GroupTotals(entries: seq<Entry>, k: string)
    ensures TotalOf(GroupSum(entries), k) == AmountFor(entries, k)
    decreases |entries|
  {
    if |entries| > 0 {
      var last := entries[|entries| - 1];
      GroupTotals(entries[..|entries| - 1], k);
      AddTotalOf(GroupSum(entries[..|entries| - 1]), last.key, last.amount, k);
    }
  }
}

=== FILE: health_scorer.dfy ===
/**
 * The financial health scorer: five threshold ladders turn financial ratios
 * into component scores, a fixed-weight average combines them with a constant
 * revenue-trend score, and a letter grade, insights and recommendations are
 * derived from the result.
 *
 * Monetary quantities and ratios are exact reals. A metric key that the caller
 * did not send is `None`; each use substitutes the default that the scorer
 * passes to `dict.get` at that point, and these defaults differ between uses.
 */
module HealthScorer {
  import opened Wrappers
  import opened Numbers

  // ---------------------------------------------------------------------------
  // Input and output.

  /** The metric keys the scorer reads; `debt_ratio` is documented but never read. */
  datatype Metrics = Metrics(
    cashReserves: Option<real>,
    monthlyRevenue: Option<real>,
    monthlyExpenses: Option<real>,
    burnRate: Option<real>,
    runwayMonths: Option<real>,
    growthRate: Option<real>)

  datatype ComponentScores = ComponentScores(
    cashReserves: int,
    burnRate: int,
    runway: int,
    growthRate: int,
    expenseRatio: int,
    revenueTrend: int)

  datatype Grade = APlus | A | AMinus | BPlus | B | BMinus | CPlus | C | CMinus | D | F

  datatype InsightKind = Warning | Positive | Critical

  /** An insight; each carries the figure its message reports. */
  datatype Insight =
    | LowCashReserves(months: real)
    | StrongCashPosition(months: real)
    | ExcellentGrowth(rate: real)
    | NegativeGrowth(rate: real)
    | ExpensesExceedRevenue(ratio: real)
    | HealthyExpenseRatio(ratio: real)
  {
    /** The figure the insight reports: months of cash, growth rate or expense ratio. */
    function Figure(): real {
      match this
      case LowCashReserves(v) => v
      case StrongCashPosition(v) => v
      case ExcellentGrowth(v) => v
      case NegativeGrowth(v) => v
      case ExpensesExceedRevenue(v) => v
      case HealthyExpenseRatio(v) => v
    }

    /** The insight's `type`: a warning, a positive note or a critical alert. */
    function Kind(): (k: InsightKind)
      ensures k == Warning <==> LowCashReserves? || NegativeGrowth?
      ensures k == Critical <==> ExpensesExceedRevenue?
      ensures k == Positive <==> StrongCashPosition? || ExcellentGrowth? || HealthyExpenseRatio?
    {
      match this
      case LowCashReserves(_) => Warning
      case StrongCashPosition(_) => Positive
      case ExcellentGrowth(_) => Positive
      case NegativeGrowth(_) => Warning
      case ExpensesExceedRevenue(_) => Critical
      case HealthyExpenseRatio(_) => Positive
    }
  }

  datatype Priority = CriticalPriority | HighPriority | MediumPriority | LowPriority

  datatype Area = CashManagement | CostControl | Growth | ExpenseManagement | General

  /** A recommendation; its action text is fixed by its area and priority. */
  datatype Recommendation = Recommendation(priority: Priority, area: Area)

  /** Raised by the unguarded divisions of the insight generator. */
  datatype HealthError = ZeroDivision

  datatype HealthReport = HealthReport(
    score: real,
    grade: Grade,
    components: ComponentScores,
    insights: seq<Insight>,
    recommendations: seq<Recommendation>)

  // ---------------------------------------------------------------------------
  // Configuration: the weights of the overall score.

  const CashWeight: real := 0.25
  const BurnWeight: real := 0.20
  const RunwayWeight: real := 0.20
  const GrowthWeight: real := 0.15
  const ExpenseRatioWeight: real := 0.10
  const RevenueTrendWeight: real := 0.10

  /** The revenue trend is not computed; every report uses this fixed score. */
  const RevenueTrendScore: int := 70

  lemma WeightsSumToOne()
    ensures CashWeight + BurnWeight + RunwayWeight + GrowthWeight + ExpenseRatioWeight + RevenueTrendWeight == 1.0
    ensures CashWeight > 0.0 && BurnWeight > 0.0 && RunwayWeight > 0.0
    ensures GrowthWeight > 0.0 && ExpenseRatioWeight > 0.0 && RevenueTrendWeight > 0.0
  {
  }

  // ---------------------------------------------------------------------------
  // Component scores.

  /** Months of expenses covered by cash: at least 12, 6, 3, 1 months earn 100, 80, 60, 40. */
  function ScoreCashReserves(cash: real, monthlyExpenses: real): (r: int)
    ensures monthlyExpenses == 0.0 ==> r == 50
    ensures monthlyExpenses != 0.0 ==> r in {20, 40, 60, 80, 100}
    ensures monthlyExpenses != 0.0 ==>
      && (r == 100 <==> cash / monthlyExpenses >= 12.0)
      && (r >= 80 <==> cash / monthlyExpenses >= 6.0)
      && (r >= 60 <==> cash / monthlyExpenses >= 3.0)
      && (r >= 40 <==> cash / monthlyExpenses >= 1.0)
  {
    if monthlyExpenses == 0.0 then 50
    else
      var monthsCoverage := cash / monthlyExpenses;
      if monthsCoverage >= 12.0 then 100
      else if monthsCoverage >= 6.0 then 80
      else if monthsCoverage >= 3.0 then 60
      else if monthsCoverage >= 1.0 then 40
      else 20
  }

  /** Burn relative to revenue: a ratio of at most 0, 0.2, 0.5, 1 earns 100, 90, 70, 50. */
  function ScoreBurnRate(burnRate: real, monthlyRevenue: real): (r: int)
    ensures monthlyRevenue == 0.0 ==> r == (if burnRate == 0.0 then 30 else 20)
    ensures monthlyRevenue != 0.0 ==> r in {30, 50, 70, 90, 100}
    ensures monthlyRevenue != 0.0 ==>
      && (r == 100 <==> burnRate / monthlyRevenue <= 0.0)
      && (r >= 90 <==> burnRate / monthlyRevenue <= 0.2)
      && (r >= 70 <==> burnRate / monthlyRevenue <= 0.5)
      && (r >= 50 <==> burnRate / monthlyRevenue <= 1.0)
  {
    if monthlyRevenue == 0.0 then (if burnRate == 0.0 then 30 else 20)
    else
      var burnRatio := burnRate / monthlyRevenue;
      if burnRatio <= 0.0 then 100
      else if burnRatio <= 0.2 then 90
      else if burnRatio <= 0.5 then 70
      else if burnRatio <= 1.0 then 50
      else 30
  }

  /** Runway: at least 24, 12, 6, 3 months earn 100, 80, 60, 40. */
  function ScoreRunway(runwayMonths: real): (r: int)
    ensures r in {20, 40, 60, 80, 100}
    ensures r == 100 <==> runwayMonths >= 24.0
    ensures r >= 80 <==> runwayMonths >= 12.0
    ensures r >= 60 <==> runwayMonths >= 6.0
    ensures r >= 40 <==> runwayMonths >= 3.0
  {
    if runwayMonths >= 24.0 then 100
    else if runwayMonths >= 12.0 then 80
    else if runwayMonths >= 6.0 then 60
    else if runwayMonths >= 3.0 then 40
    else 20
  }

  /** Growth: at least 0.3, 0.2, 0.1, 0, -0.1 earns 100, 90, 75, 60, 40. */
  function ScoreGrowth(growthRate: real): (r: int)
    ensures r in {20, 40, 60, 75, 90, 100}
    ensures growthRate == 0.0 ==> r == 60
    ensures r == 100 <==> growthRate >= 0.3
    ensures r >= 90 <==> growthRate >= 0.2
    ensures r >= 75 <==> growthRate >= 0.1
    ensures r >= 60 <==> growthRate >= 0.0
    ensures r >= 40 <==> growthRate >= -0.1
  {
    if growthRate >= 0.3 then 100
    else if growthRate >= 0.2 then 90
    else if growthRate >= 0.1 then 75
    else if growthRate >= 0.0 then 60
    else if growthRate >= -0.1 then 40
    else 20
  }

  /** Expenses relative to revenue: a ratio of at most 0.5, 0.7, 0.9, 1 earns 100, 80, 60, 40. */
  function ScoreExpenseRatio(expenses: real, revenue: real): (r: int)
    ensures revenue == 0.0 ==> r == 30
    ensures revenue != 0.0 ==> r in {20, 40, 60, 80, 100}
    ensures revenue != 0.0 ==>
      && (r == 100 <==> expenses / revenue <= 0.5)
      && (r >= 80 <==> expenses / revenue <= 0.7)
      && (r >= 60 <==> expenses / revenue <= 0.9)
      && (r >= 40 <==> expenses / revenue <= 1.0)
  {
    if revenue == 0.0 then 30
    else
      var ratio := expenses / revenue;
      if ratio <= 0.5 then 100
      else if ratio <= 0.7 then 80
      else if ratio <= 0.9 then 60
      else if ratio <= 1.0 then 40
      else 20
  }

  lemma CashScoreMonotone(cash1: real, expenses1: real, cash2: real, expenses2: real)
    requires expenses1 != 0.0 && expenses2 != 0.0
    requires cash1 / expenses1 <= cash2 / expenses2
    ensures ScoreCashReserves(cash1, expenses1) <= ScoreCashReserves(cash2, expenses2)
  {
  }

  lemma BurnScoreAntitone(burn1: real, revenue1: real, burn2: real, revenue2: real)
    requires revenue1 != 0.0 && revenue2 != 0.0
    requires burn1 / revenue1 <= burn2 / revenue2
    ensures ScoreBurnRate(burn2, revenue2) <= ScoreBurnRate(burn1, revenue1)
    ensures burn1 / revenue1 <= 0.0 ==> ScoreBurnRate(burn1, revenue1) == 100
  {
  }

  lemma RunwayScoreMonotone(months1: real, months2: real)
    requires months1 <= months2
    ensures ScoreRunway(months1) <= ScoreRunway(months2)
  {
  }

  lemma GrowthScoreMonotone(rate1: real, rate2: real)
    requires rate1 <= rate2
    ensures ScoreGrowth(rate1) <= ScoreGrowth(rate2)
  {
  }

  lemma ExpenseRatioScoreAntitone(expenses1: real, revenue1: real, expenses2: real, revenue2: real)
    requires revenue1 != 0.0 && revenue2 != 0.0
    requires expenses1 / revenue1 <= expenses2 / revenue2
    ensures ScoreExpenseRatio(expenses2, revenue2) <= ScoreExpenseRatio(expenses1, revenue1)
  {
  }

  /** The component scores of `metrics`, each read with the default the scorer uses there. */
  function Components(m: Metrics): (c: ComponentScores)
    ensures 20 <= c.cashReserves <= 100 && 20 <= c.burnRate <= 100 && 20 <= c.runway <= 100
    ensures 20 <= c.growthRate <= 100 && 20 <= c.expenseRatio <= 100
    ensures c.revenueTrend == RevenueTrendScore
    // An absent monthly-expenses key divides cash by 1, an absent revenue key
    // counts as zero revenue for the burn score but as 1 for the expense ratio.
    ensures m.monthlyExpenses.None? ==> c.cashReserves == ScoreCashReserves(m.cashReserves.GetOr(0.0), 1.0)
    ensures m.monthlyRevenue.None? ==> c.burnRate == ScoreBurnRate(m.burnRate.GetOr(0.0), 0.0)
    ensures m.monthlyRevenue.None? ==> c.expenseRatio == ScoreExpenseRatio(m.monthlyExpenses.GetOr(0.0), 1.0)
  {
    ComponentScores(
      cashReserves := ScoreCashReserves(m.cashReserves.GetOr(0.0), m.monthlyExpenses.GetOr(1.0)),
      burnRate := ScoreBurnRate(m.burnRate.GetOr(0.0), m.monthlyRevenue.GetOr(0.0)),
      runway := ScoreRunway(m.runwayMonths.GetOr(0.0)),
      growthRate := ScoreGrowth(m.growthRate.GetOr(0.0)),
      expenseRatio := ScoreExpenseRatio(m.monthlyExpenses.GetOr(0.0), m.monthlyRevenue.GetOr(1.0)),
      revenueTrend := RevenueTrendScore)
  }

  // ---------------------------------------------------------------------------
  // Overall score.


  /** The lowest of the six component scores. */
  function LowestComponent(c: ComponentScores): int {
    Min(Min(Min(c.cashReserves, c.burnRate), Min(c.runway, c.growthRate)), Min(c.expenseRatio, c.revenueTrend))
  }

  /** The highest of the six component scores. */
  function HighestComponent(c: ComponentScores): int {
    Max(Max(Max(c.cashReserves, c.burnRate), Max(c.runway, c.growthRate)), Max(c.expenseRatio, c.revenueTrend))
  }

  /**
   * The weighted average of the component scores, before rounding. The
   * weights are non-negative and sum to 1, so the result lies between the
   * lowest and the highest component.
   */
  function WeightedScore(c: ComponentScores): (r: real)
    ensures LowestComponent(c) as real <= r <= HighestComponent(c) as real
  {
    var lo := LowestComponent(c) as real;
    var hi := HighestComponent(c) as real;
    assert lo <= c.cashReserves as real <= hi && lo <= c.burnRate as real <= hi;
    assert lo <= c.runway as real <= hi && lo <= c.growthRate as real <= hi;
    assert lo <= c.expenseRatio as real <= hi && lo <= c.revenueTrend as real <= hi;
    c.cashReserves as real * CashWeight
    + c.burnRate as real * BurnWeight
    + c.runway as real * RunwayWeight
    + c.growthRate as real * GrowthWeight
    + c.expenseRatio as real * ExpenseRatioWeight
    + c.revenueTrend as real * RevenueTrendWeight
  }

  ghost predicate ComponentsAtMost(c1: ComponentScores, c2: ComponentScores) {
    && c1.cashReserves <= c2.cashReserves
    && c1.burnRate <= c2.burnRate
    && c1.runway <= c2.runway
    && c1.growthRate <= c2.growthRate
    && c1.expenseRatio <= c2.expenseRatio
    && c1.revenueTrend <= c2.revenueTrend
  }

  /** Raising any component never lowers the overall score. */
  lemma WeightedScoreMonotone(c1: ComponentScores, c2: ComponentScores)
    requires ComponentsAtMost(c1, c2)
    ensures WeightedScore(c1) <= WeightedScore(c2)
  {
  }

  /**
   * With every computed component in [20, 100], the weights summing to 1 and
   * the trend fixed at 70, the unrounded score lies in [25, 97].
   */
  lemma WeightedScoreBounds(m: Metrics)
    ensures 25.0 <= WeightedScore(Components(m)) <= 97.0
  {
    var c := Components(m);
    var low := ComponentScores(20, 20, 20, 20, 20, RevenueTrendScore);
    var high := ComponentScores(100, 100, 100, 100, 100, RevenueTrendScore);
    WeightedScoreMonotone(low, c);
    WeightedScoreMonotone(c, high);
  }

  /** Whether `x` is a whole number of tenths. */
  ghost predicate IsTenths(x: real) {
    (x * 10.0).Floor as real == x * 10.0
  }

  /**
   * `round(x, 1)`: the nearest multiple of 0.1, with ties to the even tenth.
   */
  function Round1(x: real): (r: real)
    ensures IsTenths(r)
    ensures x - 0.05 <= r <= x + 0.05
    // Off a tie the nearest tenth is strictly nearer; on a tie it is the even one.
    ensures x * 10.0 - (x * 10.0).Floor as real != 0.5 ==> x - 0.05 < r < x + 0.05
    ensures x * 10.0 - (x * 10.0).Floor as real == 0.5 ==> (r * 10.0).Floor % 2 == 0
  {
    var scaled := x * 10.0;
    var down := scaled.Floor;
    var frac := scaled - down as real;
    var k :=
      if frac > 0.5 then down + 1
      else if frac < 0.5 then down
      else if down % 2 == 0 then down
      else down + 1;
    var r := k as real / 10.0;
    assert r * 10.0 == k as real;
    assert (r * 10.0).Floor == k;
    assert r - x == (k as real - scaled) / 10.0;
    assert frac == 0.5 ==> k % 2 == 0;
    r
  }

  /** Rounding to tenths keeps a score inside any interval with whole-number ends. */
  lemma RoundedWithin(x: real, lo: int, hi: int)
    requires lo as real <= x <= hi as real
    ensures lo as real <= Round1(x) <= hi as real
  {
    var r := Round1(x);
    var k := (r * 10.0).Floor;
    assert k as real == r * 10.0;
    assert k as real > (lo * 10 - 1) as real;
    assert k as real < (hi * 10 + 1) as real;
    assert lo * 10 <= k <= hi * 10;
    assert r == k as real / 10.0;
  }

  // ---------------------------------------------------------------------------
  // Grade.

  /** Position of a grade in the ladder A+ > A > A- > ... > D > F. */
  function Rank(g: Grade): nat {
    match g
    case APlus => 10 case A => 9 case AMinus => 8 case BPlus => 7 case B => 6
    case BMinus => 5 case CPlus => 4 case C => 3 case CMinus => 2 case D => 1 case F => 0
  }

  /** The lowest score that earns grade `g`; F has no lower bound. */
  function MinimumScore(g: Grade): Option<real> {
    match g
    case APlus => Some(90.0) case A => Some(85.0) case AMinus => Some(80.0)
    case BPlus => Some(75.0) case B => Some(70.0) case BMinus => Some(65.0)
    case CPlus => Some(60.0) case C => Some(55.0) case CMinus => Some(50.0)
    case D => Some(40.0) case F => None
  }

  /** Whether `score` reaches the floor of grade `g`. */
  ghost predicate Reaches(score: real, g: Grade) {
    MinimumScore(g).None? || score >= MinimumScore(g).value
  }

  /** The best grade whose floor the score reaches. */
  function GradeOf(score: real): (g: Grade)
    ensures Reaches(score, g)
    ensures forall h: Grade :: Rank(h) > Rank(g) ==> !Reaches(score, h)
    ensures g == APlus <==> score >= 90.0
    ensures g == F <==> score < 40.0
  {
    if score >= 90.0 then APlus
    else if score >= 85.0 then A
    else if score >= 80.0 then AMinus
    else if score >= 75.0 then BPlus
    else if score >= 70.0 then B
    else if score >= 65.0 then BMinus
    else if score >= 60.0 then CPlus
    else if score >= 55.0 then C
    else if score >= 50.0 then CMinus
    else if score >= 40.0 then D
    else F
  }

  /** A higher score never yields a worse grade. */
  lemma GradeMonotone(score1: real, score2: real)
    requires score1 <= score2
    ensures Rank(GradeOf(score1)) <= Rank(GradeOf(score2))
  {
    // score2 reaches the floor of score1's grade, and no grade above
    // score2's own is reached.
    var g1 := GradeOf(score1);
    assert Reaches(score2, g1);
  }

  // ---------------------------------------------------------------------------
  // Insights.

  /** The figure reported under a topic. */
  function TopicFigure(topic: nat, months: real, growth: real, ratio: real): real {
    if topic == 0 then months else if topic == 1 then growth else ratio
  }

  /** The insights are emitted topic by topic: cash, then growth, then the expense ratio. */
  function InsightTopic(i: Insight): nat {
    match i
    case LowCashReserves(_) => 0
    case StrongCashPosition(_) => 0
    case ExcellentGrowth(_) => 1
    case NegativeGrowth(_) => 1
    case ExpensesExceedRevenue(_) => 2
    case HealthyExpenseRatio(_) => 2
  }

  /**
   * The insights for `m`. The two divisions have no zero guard: the default 1
   * applies only when the key is absent, so an explicit zero divisor raises.
   */
  function GenerateInsights(m: Metrics): (r: Result<seq<Insight>, HealthError>)
    ensures r.Failure? <==> m.monthlyExpenses == Some(0.0) || m.monthlyRevenue == Some(0.0)
    ensures r.Success? ==> |r.value| <= 3
    ensures r.Success? ==>
      var cashMonths := m.cashReserves.GetOr(0.0) / m.monthlyExpenses.GetOr(1.0);
      && (LowCashReserves(cashMonths) in r.value <==> cashMonths < 3.0)
      && (StrongCashPosition(cashMonths) in r.value <==> cashMonths >= 12.0)
    ensures r.Success? ==>
      var growth := m.growthRate.GetOr(0.0);
      && (ExcellentGrowth(growth) in r.value <==> growth > 0.2)
      && (NegativeGrowth(growth) in r.value <==> growth < 0.0)
    ensures r.Success? ==>
      var ratio := m.monthlyExpenses.GetOr(0.0) / m.monthlyRevenue.GetOr(1.0);
      && (ExpensesExceedRevenue(ratio) in r.value <==> ratio > 1.0)
      && (HealthyExpenseRatio(ratio) in r.value <==> ratio < 0.6)
    ensures r.Success? ==>
      var cashMonths := m.cashReserves.GetOr(0.0) / m.monthlyExpenses.GetOr(1.0);
      var growth := m.growthRate.GetOr(0.0);
      var ratio := m.monthlyExpenses.GetOr(0.0) / m.monthlyRevenue.GetOr(1.0);
      forall x :: x in r.value ==> x.Figure() == TopicFigure(InsightTopic(x), cashMonths, growth, ratio)
    ensures r.Success? ==>
      forall i, j :: 0 <= i < j < |r.value| ==> InsightTopic(r.value[i]) < InsightTopic(r.value[j])
  {
    var expensesDivisor := m.monthlyExpenses.GetOr(1.0);
    if expensesDivisor == 0.0 then Failure(ZeroDivision)
    else
      var cashMonths := m.cashReserves.GetOr(0.0) / expensesDivisor;
      var revenueDivisor := m.monthlyRevenue.GetOr(1.0);
      if revenueDivisor == 0.0 then Failure(ZeroDivision)
      else
        Success(InsightsFor(cashMonths, m.growthRate.GetOr(0.0), m.monthlyExpenses.GetOr(0.0) / revenueDivisor))
  }

  /** The insights for the three figures, topic by topic. */
  function InsightsFor(months: real, growth: real, ratio: real): (r: seq<Insight>)
    ensures |r| <= 3
    ensures LowCashReserves(months) in r <==> months < 3.0
    ensures StrongCashPosition(months) in r <==> months >= 12.0
    ensures ExcellentGrowth(growth) in r <==> growth > 0.2
    ensures NegativeGrowth(growth) in r <==> growth < 0.0
    ensures ExpensesExceedRevenue(ratio) in r <==> ratio > 1.0
    ensures HealthyExpenseRatio(ratio) in r <==> ratio < 0.6
    ensures forall x :: x in r ==> x.Figure() == TopicFigure(InsightTopic(x), months, growth, ratio)
    ensures forall i, j :: 0 <= i < j < |r| ==> InsightTopic(r[i]) < InsightTopic(r[j])
  {
    var cash := CashInsight(months);
    var growthInsight := GrowthInsight(growth);
    var expense := ExpenseInsight(ratio);
    TopicsInOrder(cash, growthInsight, expense);
    cash + growthInsight + expense
  }

  /** The cash insight: low below 3 months of coverage, strong from 12 months up. */
  function CashInsight(months: real): (r: seq<Insight>)
    ensures LowCashReserves(months) in r <==> months < 3.0
    ensures StrongCashPosition(months) in r <==> months >= 12.0
    ensures |r| <= 1 && forall x :: x in r ==> InsightTopic(x) == 0 && x.Figure() == months
  {
    if months < 3.0 then [LowCashReserves(months)]
    else if months >= 12.0 then [StrongCashPosition(months)]
    else []
  }

  /** The growth insight: excellent above 20%, negative below 0. */
  function GrowthInsight(rate: real): (r: seq<Insight>)
    ensures ExcellentGrowth(rate) in r <==> rate > 0.2
    ensures NegativeGrowth(rate) in r <==> rate < 0.0
    ensures |r| <= 1 && forall x :: x in r ==> InsightTopic(x) == 1 && x.Figure() == rate
  {
    if rate > 0.2 then [ExcellentGrowth(rate)]
    else if rate < 0.0 then [NegativeGrowth(rate)]
    else []
  }

  /** The expense-ratio insight: critical above 1, healthy below 0.6. */
  function ExpenseInsight(ratio: real): (r: seq<Insight>)
    ensures ExpensesExceedRevenue(ratio) in r <==> ratio > 1.0
    ensures HealthyExpenseRatio(ratio) in r <==> ratio < 0.6
    ensures |r| <= 1 && forall x :: x in r ==> InsightTopic(x) == 2 && x.Figure() == ratio
  {
    if ratio > 1.0 then [ExpensesExceedRevenue(ratio)]
    else if ratio < 0.6 then [HealthyExpenseRatio(ratio)]
    else []
  }

  /** One insight per topic at most, concatenated cash, growth, expense: topics strictly increase. */
  lemma TopicsInOrder(cash: seq<Insight>, growth: seq<Insight>, expense: seq<Insight>)
    requires |cash| <= 1 && forall x :: x in cash ==> InsightTopic(x) == 0
    requires |growth| <= 1 && forall x :: x in growth ==> InsightTopic(x) == 1
    requires |expense| <= 1 && forall x :: x in expense ==> InsightTopic(x) == 2
    ensures var all := cash + growth + expense;
      && |all| <= 3
      && (forall i, j :: 0 <= i < j < |all| ==> InsightTopic(all[i]) < InsightTopic(all[j]))
      && (forall x :: InsightTopic(x) == 0 ==> (x in all <==> x in cash))
      && (forall x :: InsightTopic(x) == 1 ==> (x in all <==> x in growth))
      && (forall x :: InsightTopic(x) == 2 ==> (x in all <==> x in expense))
  {
    var all := cash + growth + expense;
    forall k | 0 <= k < |all|
      ensures InsightTopic(all[k]) == if k < |cash| then 0 else if k < |cash| + |growth| then 1 else 2
    {
      if k < |cash| {
        assert all[k] == cash[k];
      } else if k < |cash| + |growth| {
        assert all[k] == growth[k - |cash|];
      } else {
        assert all[k] == expense[k - |cash| - |growth|];
      }
    }
  }

  /** A cash insight of each kind occurs exactly when its threshold holds. */
  lemma CashInsightKinds(months: real, growth: real, ratio: real)
    ensures var ins := InsightsFor(months, growth, ratio);
      && ((exists i :: i in ins && i.LowCashReserves?) <==> months < 3.0)
      && ((exists i :: i in ins && i.StrongCashPosition?) <==> months >= 12.0)
  {
    // Every such insight carries the figure itself, so one of a kind is
    // present exactly when the one with that figure is.
    var ins := InsightsFor(months, growth, ratio);
    forall i | i in ins && (i.LowCashReserves? || i.StrongCashPosition?)
      ensures i == if i.LowCashReserves? then LowCashReserves(months) else StrongCashPosition(months)
    {
    }
    if months < 3.0 {
      assert LowCashReserves(months) in ins;
    }
    if months >= 12.0 {
      assert StrongCashPosition(months) in ins;
    }
  }

  /** A growth insight of each kind occurs exactly when its threshold holds. */
  lemma GrowthInsightKinds(months: real, growth: real, ratio: real)
    ensures var ins := InsightsFor(months, growth, ratio);
      && ((exists i :: i in ins && i.ExcellentGrowth?) <==> growth > 0.2)
      && ((exists i :: i in ins && i.NegativeGrowth?) <==> growth < 0.0)
  {
    // Every such insight carries the figure itself, so one of a kind is
    // present exactly when the one with that figure is.
    var ins := InsightsFor(months, growth, ratio);
    forall i | i in ins && (i.ExcellentGrowth? || i.NegativeGrowth?)
      ensures i == if i.ExcellentGrowth? then ExcellentGrowth(growth) else NegativeGrowth(growth)
    {
    }
    if growth > 0.2 {
      assert ExcellentGrowth(growth) in ins;
    }
    if growth < 0.0 {
      assert NegativeGrowth(growth) in ins;
    }
  }

  /** An expense-ratio insight of each kind occurs exactly when its threshold holds. */
  lemma ExpenseInsightKinds(months: real, growth: real, ratio: real)
    ensures var ins := InsightsFor(months, growth, ratio);
      && ((exists i :: i in ins && i.ExpensesExceedRevenue?) <==> ratio > 1.0)
      && ((exists i :: i in ins && i.HealthyExpenseRatio?) <==> ratio < 0.6)
  {
    // Every such insight carries the figure itself, so one of a kind is
    // present exactly when the one with that figure is.
    var ins := InsightsFor(months, growth, ratio);
    forall i | i in ins && (i.ExpensesExceedRevenue? || i.HealthyExpenseRatio?)
      ensures i == if i.ExpensesExceedRevenue? then ExpensesExceedRevenue(ratio) else HealthyExpenseRatio(ratio)
    {
    }
    if ratio > 1.0 {
      assert ExpensesExceedRevenue(ratio) in ins;
    }
    if ratio < 0.6 {
      assert HealthyExpenseRatio(ratio) in ins;
    }
  }

  /**
   * A warning is among the insights exactly when cash covers under 3 months
   * or growth is negative, and a critical alert exactly when expenses exceed
   * revenue.
   */
  lemma InsightTypes(months: real, growth: real, ratio: real)
    ensures var ins := InsightsFor(months, growth, ratio);
      && ((exists i :: i in ins && i.Kind() == Warning) <==> months < 3.0 || growth < 0.0)
      && ((exists i :: i in ins && i.Kind() == Critical) <==> ratio > 1.0)
  {
    var ins := InsightsFor(months, growth, ratio);
    CashInsightKinds(months, growth, ratio);
    GrowthInsightKinds(months, growth, ratio);
    ExpenseInsightKinds(months, growth, ratio);
    if exists i :: i in ins && i.Kind() == Warning {
      var i :| i in ins && i.Kind() == Warning;
      assert i.LowCashReserves? || i.NegativeGrowth?;
    }
    if months < 3.0 {
      var i :| i in ins && i.LowCashReserves?;
      assert i.Kind() == Warning;
    } else if growth < 0.0 {
      var i :| i in ins && i.NegativeGrowth?;
      assert i.Kind() == Warning;
    }
    if ratio > 1.0 {
      var i :| i in ins && i.ExpensesExceedRevenue?;
      assert i.Kind() == Critical;
    }
  }

  /**
   * Whenever insights can be produced, the cash and expense-ratio insights
   * agree with the component scores computed from the same metrics.
   */
  lemma InsightsAgreeWithScores(m: Metrics)
    requires GenerateInsights(m).Success?
    ensures var c := Components(m); var ins := GenerateInsights(m).value;
      && ((exists i :: i in ins && i.LowCashReserves?) <==> c.cashReserves < 60)
      && ((exists i :: i in ins && i.StrongCashPosition?) <==> c.cashReserves == 100)
      && ((exists i :: i in ins && i.ExpensesExceedRevenue?) <==> c.expenseRatio == 20)
      && ((exists i :: i in ins && i.NegativeGrowth?) <==> c.growthRate <= 40)
      && ((exists i :: i in ins && i.ExcellentGrowth?) ==> c.growthRate >= 90)
  {
    var months := m.cashReserves.GetOr(0.0) / m.monthlyExpenses.GetOr(1.0);
    var ratio := m.monthlyExpenses.GetOr(0.0) / m.monthlyRevenue.GetOr(1.0);
    assert GenerateInsights(m).value == InsightsFor(months, m.growthRate.GetOr(0.0), ratio);
    CashInsightKinds(months, m.growthRate.GetOr(0.0), ratio);
    GrowthInsightKinds(months, m.growthRate.GetOr(0.0), ratio);
    ExpenseInsightKinds(months, m.growthRate.GetOr(0.0), ratio);
  }

  /**
   * The zero-expense and zero-revenue guards of the cash and expense-ratio
   * scores never show up in a report: those inputs make the insight step raise.
   */
  lemma ZeroGuardsUnreachable(m: Metrics)
    requires GenerateInsights(m).Success?
    ensures Components(m).cashReserves != 50
    ensures Components(m).expenseRatio != 30
  {
  }

  // ---------------------------------------------------------------------------
  // Recommendations.

  /** The order in which the scorer considers the areas. */
  function AreaRank(a: Area): nat {
    match a
    case CashManagement => 0
    case CostControl => 1
    case Growth => 2
    case ExpenseManagement => 3
    case General => 4
  }

  /** The six recommendations the scorer can give. */
  ghost predicate Advisable(x: Recommendation) {
    x in [
      Recommendation(HighPriority, CashManagement), Recommendation(HighPriority, CostControl),
      Recommendation(MediumPriority, Growth), Recommendation(HighPriority, ExpenseManagement),
      Recommendation(CriticalPriority, General), Recommendation(LowPriority, General)]
  }

  /** Areas strictly increase along the list. */
  ghost predicate AreasInOrder(r: seq<Recommendation>) {
    forall i, j :: 0 <= i < j < |r| ==> AreaRank(r[i].area) < AreaRank(r[j].area)
  }

  /** `[rec]` when `condition` holds, otherwise nothing. */
  function When(condition: bool, rec: Recommendation): (r: seq<Recommendation>)
    ensures rec in r <==> condition
    ensures |r| <= 1 && forall x :: x in r ==> x == rec
  {
    if condition then [rec] else []
  }

  /** Putting at most one recommendation of an earlier area in front keeps the areas in order. */
  lemma PrependInOrder(head: seq<Recommendation>, rest: seq<Recommendation>, rank: nat)
    requires |head| <= 1 && AreasInOrder(rest)
    requires forall x :: x in head ==> AreaRank(x.area) == rank
    requires forall y :: y in rest ==> rank < AreaRank(y.area)
    ensures AreasInOrder(head + rest)
    ensures forall y :: y in head + rest ==> rank <= AreaRank(y.area)
  {
    var r := head + rest;
    forall i, j | 0 <= i < j < |r| ensures AreaRank(r[i].area) < AreaRank(r[j].area)
    {
      if i < |head| {
        assert r[i] in head && r[j] == rest[j - |head|];
      } else {
        assert r[i] == rest[i - |head|] && r[j] == rest[j - |head|];
      }
    }
  }

  /** The five per-area parts, concatenated, list only advisable entries, in area order. */
  lemma PartsInOrder(cash: seq<Recommendation>, cost: seq<Recommendation>, growth: seq<Recommendation>,
                     expense: seq<Recommendation>, general: seq<Recommendation>)
    requires |cash| <= 1 && forall x :: x in cash ==> x == Recommendation(HighPriority, CashManagement)
    requires |cost| <= 1 && forall x :: x in cost ==> x == Recommendation(HighPriority, CostControl)
    requires |growth| <= 1 && forall x :: x in growth ==> x == Recommendation(MediumPriority, Growth)
    requires |expense| <= 1 && forall x :: x in expense ==> x == Recommendation(HighPriority, ExpenseManagement)
    requires |general| <= 1
    requires forall x :: x in general ==>
      x in [Recommendation(CriticalPriority, General), Recommendation(LowPriority, General)]
    ensures AreasInOrder(cash + cost + growth + expense + general)
    ensures forall x :: x in cash + cost + growth + expense + general ==> Advisable(x)
    ensures var all := cash + cost + growth + expense + general;
      && |all| <= |general| + 4
      && (Recommendation(HighPriority, CashManagement) in all <==> Recommendation(HighPriority, CashManagement) in cash)
      && (Recommendation(HighPriority, CostControl) in all <==> Recommendation(HighPriority, CostControl) in cost)
      && (Recommendation(MediumPriority, Growth) in all <==> Recommendation(MediumPriority, Growth) in growth)
      && (Recommendation(HighPriority, ExpenseManagement) in all <==> Recommendation(HighPriority, ExpenseManagement) in expense)
      && (forall x: Recommendation :: x.area == General ==> (x in all <==> x in general))
  {
    PrependInOrder(expense, general, 3);
    PrependInOrder(growth, expense + general, 2);
    PrependInOrder(cost, growth + (expense + general), 1);
    PrependInOrder(cash, cost + (growth + (expense + general)), 0);
    assert cash + cost + growth + expense + general == cash + (cost + (growth + (expense + general)));
  }

  /** The general recommendation: critical below 50, low priority from 80 up. */
  function GeneralAdvice(overall: real): (r: seq<Recommendation>)
    ensures Recommendation(CriticalPriority, General) in r <==> overall < 50.0
    ensures Recommendation(LowPriority, General) in r <==> overall >= 80.0
    ensures r == [] <==> 50.0 <= overall < 80.0
    ensures |r| <= 1
    ensures forall x :: x in r ==> x in [Recommendation(CriticalPriority, General), Recommendation(LowPriority, General)]
  {
    if overall < 50.0 then [Recommendation(CriticalPriority, General)]
    else if overall >= 80.0 then [Recommendation(LowPriority, General)]
    else []
  }

  /** Recommendations in the order the scorer appends them. */
  function GenerateRecommendations(c: ComponentScores, overall: real): (r: seq<Recommendation>)
    ensures Recommendation(HighPriority, CashManagement) in r <==> c.cashReserves < 60
    ensures Recommendation(HighPriority, CostControl) in r <==> c.burnRate < 50
    ensures Recommendation(MediumPriority, Growth) in r <==> c.growthRate < 60
    ensures Recommendation(HighPriority, ExpenseManagement) in r <==> c.expenseRatio < 50
    ensures Recommendation(CriticalPriority, General) in r <==> overall < 50.0
    ensures Recommendation(LowPriority, General) in r <==> overall >= 80.0
    ensures !(Recommendation(CriticalPriority, General) in r && Recommendation(LowPriority, General) in r)
    ensures |r| <= 5
    ensures forall x :: x in r ==> Advisable(x)
    ensures AreasInOrder(r)
  {
    var cash := When(c.cashReserves < 60, Recommendation(HighPriority, CashManagement));
    var cost := When(c.burnRate < 50, Recommendation(HighPriority, CostControl));
    var growth := When(c.growthRate < 60, Recommendation(MediumPriority, Growth));
    var expense := When(c.expenseRatio < 50, Recommendation(HighPriority, ExpenseManagement));
    var general := GeneralAdvice(overall);
    PartsInOrder(cash, cost, growth, expense, general);
    cash + cost + growth + expense + general
  }

  /** With non-zero monthly expenses, cash management is advised iff cash covers under 3 months. */
  lemma CashAdviceFromMetrics(m: Metrics, overall: real)
    requires m.monthlyExpenses.Some? && m.monthlyExpenses.value != 0.0
    ensures Recommendation(HighPriority, CashManagement) in GenerateRecommendations(Components(m), overall)
        <==> m.cashReserves.GetOr(0.0) / m.monthlyExpenses.value < 3.0
  {
  }

  // ---------------------------------------------------------------------------
  // The whole report.

  /**
   * `calculate_score`: components, weighted score rounded to one decimal,
   * grade, insights and recommendations; the grade and the recommendations
   * see the rounded score.
   */
  function CalculateScore(m: Metrics): (r: Result<HealthReport, HealthError>)
    ensures r.Failure? <==> m.monthlyExpenses == Some(0.0) || m.monthlyRevenue == Some(0.0)
    ensures r.Success? ==>
      && 25.0 <= r.value.score <= 97.0
      && IsTenths(r.value.score)
      && WeightedScore(r.value.components) - 0.05 <= r.value.score <= WeightedScore(r.value.components) + 0.05
      && r.value.components == Components(m)
      && (r.value.grade == APlus <==> r.value.score >= 90.0)
      && (r.value.grade == F <==> r.value.score < 40.0)
      && r.value.grade == GradeOf(r.value.score)
      && GenerateInsights(m).Success? && r.value.insights == GenerateInsights(m).value
      && r.value.recommendations == GenerateRecommendations(r.value.components, r.value.score)
  {
    var components := Components(m);
    var overall := Round1(WeightedScore(components));
    WeightedScoreBounds(m);
    RoundedWithin(WeightedScore(components), 25, 97);
    match GenerateInsights(m)
    case Failure(e) => Failure(e)
    case Success(insights) =>
      Success(HealthReport(
        score := overall,
        grade := GradeOf(overall),
        components := components,
        insights := insights,
        recommendations := GenerateRecommendations(components, overall)))
  }
}

=== FILE: numbers.dfy ===
/** Integer helpers shared by the analytics modules. */
module Numbers {

  function Min(a: int, b: int): int {
    if a <= b then a else b
  }

  function Max(a: int, b: int): int {
    if a >= b then a else b
  }
}

=== FILE: stable_sort.dfy ===
/**
 * Python's `sorted(xs, key=k, reverse=True)` / `xs.sort(key=k, reverse=True)`:
 * a stable sort into non-increasing key order. Python keeps elements with equal
 * keys in their original relative order even when `reverse=True`.
 *
 * The sort is modelled as a functional insertion sort; its specification is
 * (1) the result is non-increasing in the key, (2) it is a permutation of the
 * input, and (3) for every key value the subsequence of elements carrying that
 * key is exactly the one of the input (stability).
 */
module StableSort {

  /** Keys never increase from left to right. */
  ghost predicate Descending<T>(s: seq<T>, key: T -> real) {
    forall i, j :: 0 <= i < j < |s| ==> key(s[j]) <= key(s[i])
  }

  /** The subsequence of `s` whose key equals `v`, in the order of `s`. */
  function WithKey<T>(s: seq<T>, key: T -> real, v: real): seq<T>
    decreases |s|
  {
    if |s| == 0 then []
    else (if key(s[0]) == v then [s[0]] else []) + WithKey(s[1..], key, v)
  }

  /** Places `x` in front of the first element whose key does not exceed its own. */
  function Insert<T>(x: T, s: seq<T>, key: T -> real): seq<T>
    decreases |s|
  {
    if |s| == 0 then [x]
    else if key(s[0]) <= key(x) then [x] + s
    else [s[0]] + Insert(x, s[1..], key)
  }

  /** Stable descending sort of `s` by `key`; stability is `SortIsStable`. */
  function Sort<T>(s: seq<T>, key: T -> real): (r: seq<T>)
    ensures |r| == |s|
    ensures multiset(r) == multiset(s)
    ensures Descending(r, key)
    decreases |s|
  {
    if |s| == 0 then []
    else
      var tail := Sort(s[1..], key);
      InsertDescending(s[0], tail, key);
      InsertPermutes(s[0], tail, key);
      assert s == [s[0]] + s[1..];
      Insert(s[0], tail, key)
  }

  /** `s` is a stable descending rearrangement of `original`. */
  ghost predicate StablySorted<T>(s: seq<T>, original: seq<T>, key: T -> real) {
    && Descending(s, key)
    && multiset(s) == multiset(original)
    && forall v :: WithKey(s, key, v) == WithKey(original, key, v)
  }

  lemma {:induction false} WithKeyConcat<T>(a: seq<T>, b: seq<T>, key: T -> real, v: real)
    ensures WithKey(a + b, key, v) == WithKey(a, key, v) + WithKey(b, key, v)
    decreases |a|
  {
    if |a| == 0 {
      assert a + b == b;
    } else {
      var ab := a + b;
      assert ab[0] == a[0] && ab[1..] == a[1..] + b;
      WithKeyConcat(a[1..], b, key, v);
      var head := if key(a[0]) == v then [a[0]] else [];
      assert WithKey(ab, key, v) == head + WithKey(a[1..] + b, key, v);
      assert WithKey(a, key, v) == head + WithKey(a[1..], key, v);
      assert head + (WithKey(a[1..], key, v) + WithKey(b, key, v))
          == (head + WithKey(a[1..], key, v)) + WithKey(b, key, v);
    }
  }

  lemma {:induction false} InsertPermutes<T>(x: T, s: seq<T>, key: T -> real)
    ensures multiset(Insert(x, s, key)) == multiset{x} + multiset(s)
    decreases |s|
  {
    if |s| > 0 && key(x) < key(s[0]) {
      InsertPermutes(x, s[1..], key);
      assert s == [s[0]] + s[1..];
    }
  }

  lemma {:induction false} InsertDescending<T>(x: T, s: seq<T>, key: T -> real)
    requires Descending(s, key)
    ensures Descending(Insert(x, s, key), key)
    ensures |Insert(x, s, key)| == |s| + 1
    ensures Insert(x, s, key)[0] == x || (|s| > 0 && Insert(x, s, key)[0] == s[0])
    decreases |s|
  {
    if |s| > 0 && key(x) < key(s[0]) {
      var rest := Insert(x, s[1..], key);
      InsertDescending(x, s[1..], key);
      InsertPermutes(x, s[1..], key);
      var r := [s[0]] + rest;
      forall i, j | 0 <= i < j < |r|
        ensures key(r[j]) <= key(r[i])
      {
        if i == 0 {
          // r[j] is x or an element of s[1..]; both are keyed no higher than s[0].
          assert r[j] in multiset(rest);
          assert r[j] == x || r[j] in multiset(s[1..]);
          if r[j] != x {
            assert r[j] in s[1..];
            var k :| 0 <= k < |s[1..]| && s[1..][k] == r[j];
            assert s[k + 1] == r[j];
          }
        }
      }
    }
  }

  lemma {:induction false} InsertWithKey<T>(x: T, s: seq<T>, key: T -> real, v: real)
    ensures WithKey(Insert(x, s, key), key, v)
         == (if key(x) == v then [x] else []) + WithKey(s, key, v)
    decreases |s|
  {
    if |s| == 0 {
      assert WithKey([x], key, v) == (if key(x) == v then [x] else []) + WithKey([x][1..], key, v);
    } else if key(s[0]) <= key(x) {
      assert ([x] + s)[1..] == s;
    } else {
      var rest := Insert(x, s[1..], key);
      assert ([s[0]] + rest)[1..] == rest;
      InsertWithKey(x, s[1..], key, v);
      // s[0] stays in front of x: it is kept or dropped on both sides alike.
      assert WithKey([s[0]] + rest, key, v) == (if key(s[0]) == v then [s[0]] else []) + WithKey(rest, key, v);
      assert WithKey(s, key, v) == (if key(s[0]) == v then [s[0]] else []) + WithKey(s[1..], key, v);
    }
  }

  lemma {:induction false} SortIsStable<T>(s: seq<T>, key: T -> real)
    ensures StablySorted(Sort(s, key), s, key)
    ensures |Sort(s, key)| == |s|
    decreases |s|
  {
    if |s| > 0 {
      var tail := Sort(s[1..], key);
      SortIsStable(s[1..], key);
      forall v
        ensures WithKey(Sort(s, key), key, v) == WithKey(s, key, v)
      {
        InsertWithKey(s[0], tail, key, v);
      }
    }
  }

  /** In a descending sequence, nothing after a prefix has a larger key than anything in it. */
  lemma PrefixHoldsLargest<T>(s: seq<T>, n: nat, key: T -> real)
    requires Descending(s, key) && n <= |s|
    ensures forall t, u :: t in s[..n] && u in s && u !in s[..n] ==> key(u) <= key(t)
  {
    forall t, u | t in s[..n] && u in s && u !in s[..n]
      ensures key(u) <= key(t)
    {
      var i :| 0 <= i < n && s[..n][i] == t;
      var j :| 0 <= j < |s| && s[j] == u;
      assert forall k :: 0 <= k < n ==> s[k] in s[..n];
      assert s[i] == t && n <= j;
    }
  }

  /** The first `n` elements of a stable sort keep the stable order among themselves. */
  lemma PrefixWithKey<T>(s: seq<T>, n: nat, key: T -> real, v: real)
    requires n <= |s|
    ensures WithKey(s, key, v) == WithKey(s[..n], key, v) + WithKey(s[n..], key, v)
  {
    assert s == s[..n] + s[n..];
    WithKeyConcat(s[..n], s[n..], key, v);
  }

  /** No two elements share the same projection (no two categories with the same name). */
  ghost predicate DistinctBy<T, K>(s: seq<T>, proj: T -> K) {
    forall i, j :: 0 <= i < j < |s| ==> proj(s[i]) != proj(s[j])
  }

  lemma {:induction false} InsertSplit<T>(x: T, s: seq<T>, key: T -> real) returns (p: nat)
    ensures p <= |s| && Insert(x, s, key) == s[..p] + [x] + s[p..]
    decreases |s|
  {
    if |s| == 0 || key(s[0]) <= key(x) {
      p := 0;
    } else {
      var q := InsertSplit(x, s[1..], key);
      p := q + 1;
      assert s[..p] == [s[0]] + s[1..][..q];
      assert s[p..] == s[1..][q..];
    }
  }

  lemma InsertDistinctBy<T, K>(x: T, s: seq<T>, key: T -> real, proj: T -> K)
    requires DistinctBy(s, proj)
    requires forall y :: y in s ==> proj(y) != proj(x)
    ensures DistinctBy(Insert(x, s, key), proj)
  {
    var p := InsertSplit(x, s, key);
    var r := s[..p] + [x] + s[p..];
    assert forall i :: 0 <= i < p ==> r[i] == s[i];
    assert r[p] == x;
    assert forall i :: p < i < |r| ==> r[i] == s[i - 1];
    forall i, j | 0 <= i < j < |r| ensures proj(r[i]) != proj(r[j])
    {
      if i == p {
        assert r[j] in s;
      } else if j == p {
        assert r[i] in s;
      }
    }
  }

  /** Sorting never makes two elements agree on a projection they disagreed on. */
  lemma {:induction false} SortDistinctBy<T, K>(s: seq<T>, key: T -> real, proj: T -> K)
    requires DistinctBy(s, proj)
    ensures DistinctBy(Sort(s, key), proj)
    decreases |s|
  {
    if |s| > 0 {
      var x := s[0];
      var tail := Sort(s[1..], key);
      assert DistinctBy(s[1..], proj) by {
        forall i, j | 0 <= i < j < |s[1..]| ensures proj(s[1..][i]) != proj(s[1..][j])
        {
          assert s[1..][i] == s[i + 1] && s[1..][j] == s[j + 1];
        }
      }
      SortDistinctBy(s[1..], key, proj);
      SortIsStable(s[1..], key);
      forall y | y in tail ensures proj(y) != proj(x)
      {
        assert y in multiset(s[1..]);
        var k :| 0 <= k < |s[1..]| && s[1..][k] == y;
        assert s[k + 1] == y;
      }
      InsertDistinctBy(x, tail, key, proj);
    }
  }
}

=== FILE: wrappers.dfy ===
/** Option and Result datatypes shared by the analytics modules. */
module Wrappers {

  /** A value that may be absent: a dictionary key that was not supplied. */
  datatype Option<+T> = None | Some(value: T) {

    /** The value if present, otherwise `default` (Python's `dict.get(key, default)`). */
    function GetOr(default: T): T {
      match this
      case Some(v) => v
      case None => default
    }
  }

  /** Either a computed value or the error the computation raised. */
  datatype Result<+R, +E> = Success(value: R) | Failure(error: E)
}
